=== FILE: README.md ===
# FitTrack, modelled in Dafny

FitTrack is a small fitness tracker: an Express/Mongoose server that keeps
users, workouts and meals, and two clients, a legacy single-page script and
a React dashboard. This project models the parts of it that decide
something:

- the meal document and its pre-save hook, which recomputes
  `totalCalories` and `totalProtein` from the items (`Meals`, meal_model.dfy);
- the workout document's schema rules: owner and exercise required, exercise
  and notes trimmed, date defaulting to the creation time (`Workouts`,
  workout_model.dfy);
- the bearer-token middleware (`Auth`, auth.dfy). The header must start
  with exactly "Bearer " (case-sensitive) and the token is the text up to
  the next single space. This is looser and stricter than section 2.1 of
  RFC 6750 at once: "Bearer  x" (two spaces) gives no token,
  "Bearer x y" gives the token "x" and ignores the rest, and a token may
  hold any non-space character, not only the b64token characters;
- the ownership-scoped meal and workout stores behind the list, create and
  delete routes (`MealRoutes`, `WorkoutRoutes`). Each is a class over a
  `seq` of documents, and every handler first runs the middleware;
- the user document: validators, the hash-on-modify pre-save hook and
  `comparePassword` (`Users`, user_model.dfy);
- the register and login handlers (`UserRoutes`, user_routes.dfy);
- the legacy page: its notes writers and parsers, the normalisation of
  server records, the local buffers, and the totals and progress bars
  (`LegacyNotes`, `LegacyDashboard`);
- the React dashboard: `loadData`, the submit handlers and their payload
  builders, the delete handlers, `latestWeight`, `goalDelta` and "goal
  reached" (`Dashboard`, dashboard.dfy).

Some inputs come from outside and are parameters of the model:

- JWT verification is a function from token text to an optional user id.
- A token is the claims it is signed over: the user id and a 7-day lifetime.
- bcrypt's `hash(plain, salt)` and `compare(candidate, stored)` are functions,
  and the salt is an argument.
- `Date.now()` is `now` and `toLocaleTimeString()` is `clock`.
- `Number(...)` on form text is `toInt` or `toReal`.
- Server answers and fetch outcomes are arguments of the client methods.
- New ObjectIds come from a per-store counter, so a larger id is a later
  insertion.

A request body's key for a schema path with a default is three-valued
(`Common.Field`): absent, null or a value. Mongoose applies the default only
to an absent key, so `quantity: null` is stored as null and multiplies to 0
in the pre-save hook, `date: null` is stored as null and sorts after every
dated meal, and `items: null` passes validation but makes the hook's
`reduce` throw, so the create route answers 500.

Where the documentation of the system and its code disagree, the model
follows the code. The progress bars of the legacy page are capped at 100
but have no lower clamp (`Math.min` only), so a negative macro total gives
a negative bar. `LegacyDashboard.MacroBar` states exactly that.

Three consequences of the code are stated as lemmas:

- The public view of a user has no `goalWeight`, so on the React dashboard
  `goalDelta` is always null for a profile the server sent
  (`Dashboard.ServerProfileHasNoGoalDelta`).
- The meal schema has no `bodyWeight` field, so meals read back from the
  server never decide `latestWeight` (`Dashboard.ServerMealsCarryNoWeight`).
- The notes written by the legacy page round-trip through the server for
  non-negative numbers (`LegacyDashboard.WorkoutSurvivesServer`,
  `LegacyDashboard.MealSurvivesServer`).

## Model

| member | source | states |
|---|---|---|
| Meals.TotalAppend | server/models/meal.js:46-47 | the `reduce` fold of item contributions distributes over concatenation of item lists |
| Meals.TotalFromFront | server/models/meal.js:23-26 | an empty item list totals 0; otherwise the total is the first item's amount times quantity plus the total of the rest |
| Meals.TotalNonNegative | server/models/meal.js:46-47 | items with non-negative amounts and quantities give a non-negative total |
| Meals.CastItem | server/models/meal.js:3-15 | an item casts iff it has a name that is non-empty after trimming, and otherwise fails on `items.name`; the name is stored trimmed, an absent quantity becomes 1, a null one stays null, calories and protein are copied |
| Meals.CastItems | server/models/meal.js:23-26 | the item array casts iff every item casts, keeping length and order |
| Meals.CastMeal | server/models/meal.js:17-49 | a meal is stored iff it has an owner, its items are not null and every item casts; a missing owner is the `userId` error and null items the hook's failure; absent items become [], an absent date the creation time, a null date stays null; notes are trimmed |
| Meals.CastMealIgnoresBodyOwner | server/routes/mealRoutes.js:20 | a `userId` in the body makes no difference; the stored owner is the caller |
| Meals.Saved | server/models/meal.js:45-49 | after the hook both totals agree with the items and every other field is unchanged |
| Meals.SavedIgnoresClientTotals | server/models/meal.js:45-48 | totals supplied by the client are overwritten: meals that differ only in totals are saved alike |
| Meals.DefaultQuantityContributes | server/models/meal.js:11-14 | an item sent without a quantity gets quantity 1 and contributes exactly its calories and protein |
| Meals.NullQuantityContributesNothing | server/models/meal.js:11-14 | an item sent with `quantity: null` is accepted, keeps the null and adds 0 to both totals |
| Meals.MealDocument.constructor | server/models/meal.js:17-43 | the new document holds the given field values |
| Meals.MealDocument.PreSave | server/models/meal.js:45-49 | the hook overwrites the two totals in place with the folds over the items and leaves every other field as it was |
| Workouts.CastWorkout | server/models/workout.js:3-26 | a workout casts iff it has an owner and an exercise that is non-empty after trimming; a missing owner is the `userId` required error, and with an owner a missing or blank exercise is the `exercise` required error; the exercise is stored trimmed, an absent date becomes the creation time and a null one stays null, the five numbers are optional copies, notes are trimmed |
| Workouts.CastWorkoutIgnoresBodyOwner | server/routes/workoutRoutes.js:20 | a `userId` in the body makes no difference; the stored owner is the caller |
| Workouts.CastWorkoutIsNormalised | server/models/workout.js:13-26 | a stored exercise is non-empty and its own trim, and so are stored notes |
| Auth.Field | server/middleware/auth.js:6 | the second space-separated field is the maximal space-free run after the prefix |
| Auth.ExtractBearerOfHeader | server/middleware/auth.js:6 | a header "Bearer " + token + rest, with rest empty or starting with a space, yields exactly that token, so "Bearer x y" yields "x" |
| Auth.ExtractBearerShape | server/middleware/auth.js:6 | every extracted token is non-empty, space-free, follows the exact prefix and ends at a space or at the end of the header |
| Auth.NoTokenWithoutExactPrefix | server/middleware/auth.js:5-10 | no exact case-sensitive "Bearer " prefix, or an empty second field, means no token |
| Auth.Authenticate | server/middleware/auth.js:5-18 | 401 "Authorization token missing" iff there is no token; 401 "Invalid or expired token" iff verification fails; otherwise the request goes on as the decoded user id |
| Auth.AcceptsVerifiedBearer | server/middleware/auth.js:12-15 | a well-formed header whose token verifies is let through as that token's user |
| MealRoutes.OwnedBy | server/routes/mealRoutes.js:10 | the filter keeps exactly the meals of the caller |
| MealRoutes.InsertByDate | server/routes/mealRoutes.js:10 | inserting into a newest-first list (null dates last) keeps it sorted and adds exactly that meal |
| MealRoutes.SortByDateDesc | server/routes/mealRoutes.js:10 | the result is sorted newest first, null dates last, and is a permutation of the input |
| MealRoutes.Listing | server/routes/mealRoutes.js:10 | the listing is sorted by date descending and holds each of the caller's meals as often as stored, and nothing else |
| MealRoutes.FindOwned | server/routes/mealRoutes.js:31 | finds a meal whose id and owner both match, and finds none iff no meal matches both |
| MealRoutes.DeleteRemovesExactlyOne | server/routes/mealRoutes.js:31-35 | removing the found meal removes one occurrence of it; every other meal stays and the id is gone |
| MealRoutes.MealStore.constructor | server/routes/mealRoutes.js:5-6 | a new store is empty and valid |
| MealRoutes.MealStore.HandleList | server/routes/mealRoutes.js:8-15 | 401 with the middleware's message unless authenticated; otherwise 200 with exactly the caller's meals, newest first |
| MealRoutes.MealStore.HandleCreate | server/routes/mealRoutes.js:18-26 | 401 unless authenticated; a document that fails validation is a 500 and nothing is stored; otherwise exactly one meal is appended, owned by the caller, with totals recomputed, and returned with 201; the store invariant is kept |
| MealRoutes.MealStore.HandleDelete | server/routes/mealRoutes.js:29-39 | 401 unless authenticated; 404 "Meal not found" and no change unless a meal matches both id and owner; otherwise exactly that meal is removed with "Meal deleted" |
| WorkoutRoutes.OwnedBy | server/routes/workoutRoutes.js:10 | the filter keeps exactly the workouts of the caller |
| WorkoutRoutes.OwnedByIncreasing | server/routes/workoutRoutes.js:10 | the caller's workouts keep their relative order, so their ids still increase |
| WorkoutRoutes.Listing | server/routes/workoutRoutes.js:10 | exactly the caller's workouts, ids strictly decreasing |
| WorkoutRoutes.FindOwned | server/routes/workoutRoutes.js:31 | finds a workout whose id and owner both match, and finds none iff no workout matches both |
| WorkoutRoutes.DeleteRemovesExactlyOne | server/routes/workoutRoutes.js:31-35 | removing the found workout removes one occurrence of it; every other workout stays and the id is gone |
| WorkoutRoutes.WorkoutStore.constructor | server/routes/workoutRoutes.js:5-6 | a new store is empty and valid |
| WorkoutRoutes.WorkoutStore.HandleList | server/routes/workoutRoutes.js:8-15 | 401 unless authenticated; otherwise 200 with exactly the caller's workouts, newest id first |
| WorkoutRoutes.WorkoutStore.HandleCreate | server/routes/workoutRoutes.js:18-26 | 401 unless authenticated; a workout that fails validation is a 500 and nothing is stored; otherwise one workout owned by the caller is appended and returned with 201 |
| WorkoutRoutes.WorkoutStore.HandleDelete | server/routes/workoutRoutes.js:29-39 | 401 unless authenticated; 404 "Workout not found" and no change unless id and owner both match; otherwise exactly that workout is removed with "Workout deleted" |
| Users.EmailPatternAcceptsAddress | server/models/user.js:18 | local@domain.tld with non-empty parts and no line terminators matches the e-mail pattern |
| Users.EmailPatternNeedsAtThenDot | server/models/user.js:18 | a match needs an '@' with a character before it and a '.' at least two places after it with a character after it |
| Users.EmailPatternRejectsNoAt | server/models/user.js:18 | a string without '@' does not match |
| Users.CastUser | server/models/user.js:6-24 | a user casts iff the trimmed username is non-empty, the trimmed lower-cased e-mail is non-empty and matches the pattern, and the password is at least 8 UTF-16 code units long (JavaScript's `length`); fields are stored trimmed and lower-cased as declared |
| Users.AstralPasswordIsLongEnough | server/models/user.js:20-24 | a password of four emoji (four characters, eight UTF-16 code units) passes the minimum length |
| Users.CastEmailIsNormalised | server/models/user.js:6-19 | a stored e-mail is its own trimmed lower-case form; a stored username is non-empty and its own trim |
| Users.LowerTrimIsNormal | server/models/user.js:16-17 | trimming and lower-casing together are idempotent |
| Users.LowerIdempotent | server/models/user.js:17 | lower-casing twice is lower-casing once |
| Users.UserDocument.constructor | server/models/user.js:4-50 | a new document holds the given values and its password counts as modified |
| Users.UserDocument.SetPassword | server/models/user.js:58 | assigning the password changes only the password and marks it modified |
| Users.UserDocument.PreSave | server/models/user.js:56-68 | a new or modified password is replaced by its salted hash; otherwise nothing changes |
| Users.UserDocument.Save | server/models/user.js:56-68 | the hook runs and the password no longer counts as modified, so a second save does not hash the hash |
| Users.NewUserMatchesItsPassword | server/models/user.js:56-75 | after a new document's first save, and after a second save without a password change, a candidate matches iff bcrypt accepts it for the hash of the creation password (the second save does not hash the hash); with a compare that accepts the hashed plain text that password matches, and with one that accepts nothing else no other candidate does |
| Users.ChangedPasswordMatches | server/models/user.js:56-75 | after a saved document's password is assigned and the document saved again, a candidate matches iff bcrypt accepts it for the hash of the new password; the new password matches, and with a compare that accepts nothing but the hashed plain text the old one does not |
| UserRoutes.PublicViewHidesSecrets | server/routes/userRoutes.js:7-15 | the public view copies id, username, e-mail, goals, age, weight and height and depends on neither the password nor the goal weight |
| UserRoutes.SignToken | server/routes/userRoutes.js:17 | the token is signed over the given user id and expires after 604800 seconds |
| UserRoutes.FindByEmail | server/routes/userRoutes.js:51 | the first user with that e-mail, and none iff no user has it |
| UserRoutes.UserStore.constructor | server/routes/userRoutes.js:5 | a new store is empty and valid |
| UserRoutes.UserStore.HandleRegister | server/routes/userRoutes.js:19-41 | 400 before the store is read when username, e-mail or password is missing; 409 and no change when the e-mail or username is taken; 500 and no change on a validation failure; otherwise one user is added with the hashed password and no goal weight, and 201 carries its public view and a 7-day token for its id; e-mails and usernames stay unique |
| UserRoutes.UserStore.HandleLogin | server/routes/userRoutes.js:43-66 | 400 when e-mail or password is missing; the identical 401 "Invalid credentials" for an unknown e-mail and for a wrong password; otherwise 200 with the user's public view and a token |
| UserRoutes.RegisterThenLogin | server/routes/userRoutes.js:19-66 | after a successful register, logging in with the same e-mail and password succeeds and returns the same public user, for any compare that accepts the plain text a hash was made from |
| LegacyNotes.DigitChar | client/public/main.js:85 | the written digit character has the digit's value |
| LegacyNotes.NatToString | client/public/main.js:85 | the text of a non-negative number is a non-empty run of digits |
| LegacyNotes.NatToStringRoundTrip | client/public/main.js:193 | `parseInt` of the digits written for n is n |
| LegacyNotes.IntToString | client/public/main.js:85 | a negative number is written as '-' and the digits of its magnitude |
| LegacyNotes.SpacesEnd | client/public/main.js:189 | the greedy `\s*` stops at the first non-whitespace character |
| LegacyNotes.DigitsEnd | client/public/main.js:189 | the greedy `\d+` stops at the first non-digit |
| LegacyNotes.Capture | client/public/main.js:193 | the captured group is a non-empty run of digits |
| LegacyNotes.FirstMatch | client/public/main.js:189 | finds the leftmost match position, and none iff the pattern matches nowhere |
| LegacyNotes.ParseField | client/public/main.js:189-193 | a note the pattern does not match reads 0; otherwise the value is read at the leftmost match |
| LegacyNotes.MissingNotesReadZero | client/public/main.js:189 | a missing note reads as "" and gives 0 |
| LegacyNotes.ParseFieldAt | client/public/main.js:189-193 | key, whitespace and a maximal digit run at the first match read as those digits |
| LegacyNotes.ParseAfter | client/public/main.js:189-193 | a note with no possible match before the key, then the key, whitespace, digits and a non-digit, reads as those digits |
| LegacyNotes.WorkoutNoteRoundTrip | client/public/main.js:85-193 | the calorie count written into a workout note reads back unchanged, whatever the time text |
| LegacyNotes.TrimmedWorkoutNoteRoundTrip | server/models/workout.js:23-26 | the calorie count still reads back after the server trims the note |
| LegacyNotes.MealNoteCarbsRoundTrip | client/public/main.js:203-210 | the carbs count written into a meal note reads back unchanged |
| LegacyNotes.MealNoteFatRoundTrip | client/public/main.js:204-211 | the fat count written into a meal note reads back unchanged, whatever the carbs count written before it |
| LegacyNotes.MealNoteIsTrimmed | server/models/meal.js:39-42 | the meal note is its own trim, so the server stores it as written |
| LegacyDashboard.PickEntryId | client/public/main.js:191 | `_id` if truthy, else `id` if truthy, else the current time |
| LegacyDashboard.NormalizeWorkout | client/public/main.js:188-196 | calories are what the note reads (0 without a match) and the name falls back from exercise to name to "Workout" |
| LegacyDashboard.NormalizeMeal | client/public/main.js:201-213 | calories and protein are the numeric totals if present, else the first item's values, else 0; carbs and fat are read from the note |
| LegacyDashboard.WorkoutSurvivesServer | client/public/main.js:76-196 | a logged workout, stored by the server and read back, keeps its trimmed name and its calories under the server's id |
| LegacyDashboard.MealSurvivesServer | client/public/main.js:141-213 | a logged meal, stored by the server and read back, keeps its calories, protein, carbs and fat under the server's id |
| LegacyDashboard.LoggedWorkoutsSurviveServer | client/public/main.js:176-196 | a list of logged workouts, stored and read back by a dashboard update in the order the server sends them, comes back entry for entry, each under its server id with its trimmed name and calories, so the calories burned are unchanged |
| LegacyDashboard.LoggedMealsSurviveServer | client/public/main.js:176-213 | a list of logged meals, stored and read back in the order the server sends them, comes back entry for entry, each equal to the logged meal but for the server id and the trimmed name, so every macro sum is unchanged |
| LegacyDashboard.SyncKeepsStats | client/public/main.js:176-262 | the statistics after a dashboard update that reads back the logged entries, in any order the server sends them, equal those the page computed from its own buffers |
| LegacyDashboard.ServerOrderKeepsStats | server/routes/workoutRoutes.js:10 | with the workouts sent `_id` descending (the stored order reversed) and the meals newest date first, the update shows the statistics the page computed from its buffers |
| LegacyDashboard.StatsIgnoreOrder | client/public/main.js:221-262 | buffers holding the same entries in any order give the same counts, sums, net and bars |
| LegacyDashboard.MacroBar | client/public/main.js:255-257 | the bar never exceeds 100, is 100 exactly when the total reaches the scale, is non-negative for a non-negative total and negative for a negative one |
| LegacyDashboard.NetBar | client/public/main.js:259-262 | the net bar is 50 at net 0, in (50,100] for a surplus and in [0,50) for a deficit |
| LegacyDashboard.NetBarMonotone | client/public/main.js:259-262 | a larger net never gives a shorter bar |
| LegacyDashboard.ExampleAggregation | client/public/main.js:221-262 | 300 burned against 500 eaten (30/60/10 g) gives net 200 and bars 15, 20, 10 and 55 |
| LegacyDashboard.AppendAddsToTotals | client/public/main.js:226-238 | one more entry adds exactly its values to each sum |
| LegacyDashboard.ComputeStats | client/public/main.js:221-262 | the loops compute the counts, sums, net (consumed minus burned) and bars that the aggregation function defines |
| LegacyDashboard.LegacyPage.constructor | client/public/main.js:3-4 | both buffers start empty |
| LegacyDashboard.LegacyPage.SubmitWorkout | client/public/main.js:52-89 | exactly one entry is appended and meals are unchanged; a POST with the bearer header, the name and the calorie note is sent iff a token is stored |
| LegacyDashboard.LegacyPage.SubmitMeal | client/public/main.js:112-158 | exactly one entry is appended and workouts are unchanged; a POST with one item and the carbs/fat note is sent iff a token is stored |
| LegacyDashboard.LegacyPage.UpdateDashboard | client/public/main.js:176-265 | without a token or when a fetch throws, both buffers stay; a readable ok list replaces its buffer and a non-ok one leaves it; an unreadable workout list also leaves the meals; the statistics are those of the resulting buffers |
| Dashboard.PickId | client/src/pages/DashboardPage.js:24 | `_id` when truthy, else `id` |
| Dashboard.RemoveById | client/src/pages/DashboardPage.js:148 | keeps exactly the entries whose id differs from the deleted one |
| Dashboard.RemoveByIdKeepsOrder | client/src/pages/DashboardPage.js:148 | deleting distributes over concatenation (order is kept) and deleting twice is deleting once |
| Dashboard.RemoveByIdCounts | client/src/pages/DashboardPage.js:148 | every other entry keeps its number of occurrences and the deleted id has none |
| Dashboard.Weighed | client/src/pages/DashboardPage.js:126 | keeps exactly the entries whose body weight is present |
| Dashboard.FirstLatest | client/src/pages/DashboardPage.js:127-128 | the position a stable newest-first sort brings to the front: latest date, first among equals |
| Dashboard.LatestWeight | client/src/pages/DashboardPage.js:124-131 | the body weight of a latest-dated weighed entry; otherwise the truthy profile weight; otherwise null |
| Dashboard.GoalDelta | client/src/pages/DashboardPage.js:133-134 | present iff both latest and goal weights are truthy, and then latest minus goal |
| Dashboard.GoalReachedIff | client/src/pages/DashboardPage.js:137 | the goal is reached iff both weights are truthy and the latest is within 0.5 of the goal |
| Dashboard.ServerProfileHasNoGoalDelta | client/src/pages/DashboardPage.js:133-137 | for a profile built from the server's public user view, goalDelta is null and the goal is never reached |
| Dashboard.MealEntriesUnweighed | server/models/meal.js:17-43 | no entry made from a stored meal carries a body weight |
| Dashboard.ServerMealsCarryNoWeight | client/src/pages/DashboardPage.js:124-131 | meals read from the server never change latestWeight |
| Dashboard.Optional | client/src/pages/DashboardPage.js:73-78 | an empty field gives undefined and only an empty one does; otherwise the field's converted number |
| Dashboard.IntOr | client/src/pages/DashboardPage.js:105-107 | an empty field gives the fallback |
| Dashboard.BuildWorkoutPayload | client/src/pages/DashboardPage.js:66-79 | refused with "Exercise name is required." iff the exercise is blank after trimming; otherwise exercise and notes trimmed and each numeric field undefined iff empty |
| Dashboard.WorkoutPayloadAccepted | client/src/pages/DashboardPage.js:71-82 | a payload the page sends is accepted by the server's workout rules, stored under the trimmed name for the caller and dated at its creation |
| Dashboard.LoggedWorkoutWeightShows | client/src/pages/DashboardPage.js:66-131 | a workout saved with a body weight is stored with it, and as the only workout it decides latestWeight whatever the meals and the profile hold |
| Dashboard.BuildMealPayload | client/src/pages/DashboardPage.js:96-112 | refused with "Meal name is required." iff the name is blank after trimming; otherwise one item with the trimmed name, calories and protein defaulting to 0 and quantity to 1, no date, and the body weight undefined iff its field is empty |
| Dashboard.MealPayloadTotals | client/src/pages/DashboardPage.js:101-115 | the stored totals of a sent meal are the form's calories and protein times its quantity |
| Dashboard.DashboardState.constructor | client/src/pages/DashboardPage.js:27-36 | empty lists, default forms, empty messages, not syncing |
| Dashboard.DashboardState.LoadData | client/src/pages/DashboardPage.js:39-55 | without a token nothing changes; on success both lists are replaced; on failure both lists stay and loadError holds the message; syncing ends either way |
| Dashboard.DashboardState.SubmitWorkout | client/src/pages/DashboardPage.js:61-89 | a blank exercise sets the error and sends nothing; otherwise the payload is sent, and the server's error is shown or the form is reset with "Workout saved.." and the data reloaded exactly as `loadData` does (lists, `loadError` and `isSyncing`); nothing but the workout panel and the loaded state changes |
| Dashboard.DashboardState.SettleWorkout | client/src/pages/DashboardPage.js:81-88 | after the payload is built: the request is the payload; a server error is shown and leaves lists, `loadError` and `isSyncing` alone; a success resets the form and, with a token, ends syncing, sets `loadError` to the reload's message or "" and replaces the lists only on a loaded reload |
| Dashboard.DashboardState.SubmitMeal | client/src/pages/DashboardPage.js:91-122 | a blank name sets the error and sends nothing; otherwise the payload is sent, and the server's error is shown or the form is reset with "Meal saved." and the data reloaded exactly as `loadData` does (lists, `loadError` and `isSyncing`); nothing but the meal panel and the loaded state changes |
| Dashboard.DashboardState.SettleMeal | client/src/pages/DashboardPage.js:114-121 | after the payload is built: the request is the payload; a server error is shown and leaves lists, `loadError` and `isSyncing` alone; a success resets the form and, with a token, ends syncing, sets `loadError` to the reload's message or "" and replaces the lists only on a loaded reload |
| Dashboard.DashboardState.DeleteWorkout | client/src/pages/DashboardPage.js:144-152 | on success the workouts lose exactly the entries with that id; on failure they stay and the error is shown; nothing else changes |
| Dashboard.DashboardState.DeleteMeal | client/src/pages/DashboardPage.js:154-162 | on success the meals lose exactly the entries with that id; on failure they stay and the error is shown; nothing else changes |

## Left out

- I/O is not modelled: HTTP, fetch, `localStorage`, `alert`, DOM writes, tab switching and list rendering. Request bodies and server answers are values.
- Concurrency is not modelled. `Promise.all` and the ordering of late responses are left out, and each sync is one atomic step that succeeds or fails.
- The sync uses one `now` and one `clock` for all the records it normalises. The source calls `Date.now()` once per record.
- JWT encoding, signing and expiry checking, and bcrypt's internals (salt rounds, hash format), are outside the model. They are parameters.
- MongoDB behaviour is partly left out: query execution errors (the 500 answers of the list and delete routes), unique-index races between the duplicate check and the insert, casting errors for malformed ids or numbers, the `_id` a body may carry, and the `createdAt`/`updatedAt` timestamps of users.
- Mongoose validation errors are reduced to the failing path and rule inside the model. The 500 answers of the create and register routes carry only their `error` text: the `details` field holding `err.message` is left out. The React client's request helper shows `error` when it is present.
- A null value for a path without a default (an item's calories or protein, a workout's numbers, notes) is read the same as an absent one, as `None`. Both give 0 in the totals and leave the field out of the JSON read back.
- Mongoose's casting of strings to numbers and dates, and the `NaN` a form can produce, are not modelled. Bodies carry numbers, and `JSON.stringify` turning `NaN` into null is left out.
- ObjectIds are counter values. Their hexadecimal text is written as decimal digits, and ISO date text is a parameter `iso`.
- Numbers are not floating point. Counts and calories are integers and weights and percentages are reals, so `NaN` from `parseInt` on an empty field, rounding and `toFixed` are not modelled.
- `trim()` removes only the ASCII space, tab, newline and carriage return, not the other Unicode whitespace JavaScript removes.
- Users.NewUserMatchesItsPassword: "no other candidate matches" is promised only for a compare that accepts nothing but the plain text a hash was made from. bcrypt reads only the first 72 bytes of a password, so two passwords that agree there match the same hash; the model does not state which candidates those are.
- Users.ChangedPasswordMatches: "the old password no longer matches" is promised only for the same ideal compare, for the same reason.
- Lower-casing folds ASCII letters only. The `/i` patterns are exact because their keys are ASCII.
- The confetti effect (randomness, timers) is left out. "Goal reached" is modelled as the condition that shows it.
- server/server.js, client/src/App.js and the login, register and landing pages, the top bar and the protected route are not part of this model. They are I/O and UI plumbing, and their required-field checks are repeated by the server handlers modelled here.
- LegacyNotes.WorkoutNoteRoundTrip: stated for non-negative calorie counts only. A negative count is written with a '-' right after the key, so the pattern does not match there and the count reads back as 0.
- LegacyNotes.MealNoteCarbsRoundTrip: stated for non-negative carbs only, for the same reason.
- LegacyNotes.MealNoteFatRoundTrip: stated for non-negative fat only, for the same reason. The carbs may be any number: a minus sign in the carbs part holds no 'f', so the fat pattern still first matches at "Fat".

=== FILE: auth.dfy ===
/** The bearer-token gate of server/middleware/auth.js. The header must
    start with exactly "Bearer " (case-sensitive), and the token is the
    second field of the header split on single spaces: the text after the
    prefix up to the next space. This differs from section 2.1 of RFC 6750:
    "Bearer  x" (two spaces) gives no token, "Bearer x y" gives "x", and
    any non-space character may appear in a token, not only the b64token
    characters. Token verification (jsonwebtoken's `verify` under the server secret) is
    a parameter: it yields the decoded user id, or nothing when the
    signature or expiry check fails. */
module Auth {
  import opened Common

  /** What the middleware does: answer 401 with one of two messages, or call
      `next()` with `req.userId` set. */
  datatype AuthResult = Rejected(error: string) | Authorized(userId: ObjectId)

  const Prefix: string := "Bearer "
  const MissingToken: string := "Authorization token missing"
  const InvalidToken: string := "Invalid or expired token"

  predicate StartsWith(s: string, p: string)
  {
    |p| <= |s| && s[..|p|] == p
  }

  /** The characters of `s` from `i` up to (not including) the next space. */
  function Field(s: string, i: nat): (r: string)
    requires i <= |s|
    ensures |r| <= |s| - i && r == s[i..i + |r|]
    ensures ' ' !in r
    ensures i + |r| == |s| || s[i + |r|] == ' '
    decreases |s| - i
  {
    if i == |s| || s[i] == ' ' then [] else [s[i]] + Field(s, i + 1)
  }

  /** `authHeader.startsWith('Bearer ') ? authHeader.split(' ')[1] : null`,
      where an empty second field is as good as none (`!token`). The prefix
      has its only space at its end, so the second field starts right after it. */
  function ExtractBearer(header: string): (r: Option<string>)
  {
    if !StartsWith(header, Prefix) then None
    else
      var t := Field(header, |Prefix|);
      if t == [] then None else Some(t)
  }

  /** Extraction round-trips: a header built from the prefix, a non-empty
      token without spaces, and anything that starts with a space (or
      nothing) yields exactly that token, so "Bearer x y" yields "x". */
  lemma ExtractBearerOfHeader(token: string, rest: string)
    requires token != [] && ' ' !in token
    requires rest == [] || rest[0] == ' '
    ensures ExtractBearer(Prefix + token + rest) == Some(token)
  {
    var h := Prefix + token + rest;
    assert h[..|Prefix|] == Prefix;
    FieldOf(h, |Prefix|, token);
  }

  /** `Field` reads exactly the space-free run that starts at `i`. */
  lemma {:induction false} FieldOf(s: string, i: nat, t: string)
    requires i + |t| <= |s| && s[i..i + |t|] == t && ' ' !in t
    requires i + |t| == |s| || s[i + |t|] == ' '
    ensures Field(s, i) == t
    decreases |t|
  {
    if t != [] {
      assert s[i] == t[0];
      assert s[i + 1..i + 1 + |t[1..]|] == t[1..];
      FieldOf(s, i + 1, t[1..]);
    }
  }

  /** And conversely: every extracted token came from a header of that shape. */
  lemma ExtractBearerShape(header: string)
    requires ExtractBearer(header).Some?
    ensures var t := ExtractBearer(header).value;
      t != [] && ' ' !in t && StartsWith(header, Prefix + t)
      && (|header| == |Prefix| + |t| || header[|Prefix| + |t|] == ' ')
  {
    var t := ExtractBearer(header).value;
    assert header[..|Prefix| + |t|] == header[..|Prefix|] + header[|Prefix|..|Prefix| + |t|];
  }

  /** A header whose prefix is not exactly "Bearer " carries no token, and
      neither does "Bearer " followed by a space (an empty second field). */
  lemma NoTokenWithoutExactPrefix(header: string)
    requires !StartsWith(header, Prefix) || (|header| > |Prefix| && header[|Prefix|] == ' ') || header == Prefix
    ensures ExtractBearer(header) == None
  {
  }

  /** The middleware. A missing header reads as ''. */
  function Authenticate(header: Option<string>, verify: string -> Option<ObjectId>): (r: AuthResult)
    ensures r == Rejected(MissingToken) <==> (header.None? || ExtractBearer(header.value).None?)
    ensures r == Rejected(InvalidToken) <==>
      (header.Some? && ExtractBearer(header.value).Some? && verify(ExtractBearer(header.value).value).None?)
    ensures r.Authorized? <==>
      (header.Some? && ExtractBearer(header.value).Some? && verify(ExtractBearer(header.value).value).Some?)
    ensures r.Authorized? ==> r.userId == verify(ExtractBearer(header.value).value).value
  {
    var authHeader := if header.Some? then header.value else "";
    match ExtractBearer(authHeader)
    case None => Rejected(MissingToken)
    case Some(token) =>
      match verify(token)
      case None => Rejected(InvalidToken)
      case Some(userId) => Authorized(userId)
  }

  /** A well-formed header with a token that verifies lets the request through
      as the token's user. */
  lemma AcceptsVerifiedBearer(token: string, verify: string -> Option<ObjectId>, userId: ObjectId)
    requires token != [] && ' ' !in token
    requires verify(token) == Some(userId)
    ensures Authenticate(Some(Prefix + token), verify) == Authorized(userId)
  {
    ExtractBearerOfHeader(token, []);
    assert Prefix + token + [] == Prefix + token;
  }
}

=== FILE: common.dfy ===
/** Values shared by every part of the FitTrack model: optional values,
    document identities, JavaScript string trimming and truthiness. */
module Common {

  /** An optional value. For a stored document's path, `None` is a path
      that holds nothing (absent or `null`: the two read alike wherever the
      model uses them); for a request body's key without a schema default,
      `None` is a key that is absent or `null`. */
  datatype Option<T> = None | Some(value: T)

  /** A request body's key for a schema path that has a default. Mongoose
      applies the default only when the key is absent (`undefined`); an
      explicit `null` is stored as null. */
  datatype Field<T> = Absent | Null | Given(value: T)

  /** What a path with default `d` stores for a body key: the default when
      the key is absent, null when it is null, the value otherwise. */
  function WithDefault<T>(f: Field<T>, d: T): Option<T>
  {
    match f
    case Absent => Some(d)
    case Null => None
    case Given(v) => Some(v)
  }

  /** The outcome of an operation that may fail with an error value. */
  datatype Result<T, E> = Ok(value: T) | Err(error: E)

  /** A MongoDB ObjectId. The stores hand them out from a counter, so a
      larger id means a later insertion. */
  type ObjectId = nat

  /** JavaScript truthiness of an optional string: present and non-empty. */
  predicate TruthyString(s: Option<string>)
  {
    s.Some? && s.value != []
  }

  /** JavaScript truthiness of an optional number: present and non-zero. */
  predicate TruthyReal(x: Option<real>)
  {
    x.Some? && x.value != 0.0
  }

  /** The whitespace that `String.prototype.trim` removes and that `\s`
      matches (the ASCII part of it). */
  predicate IsSpace(c: char)
  {
    c == ' ' || c == '\t' || c == '\n' || c == '\r'
  }

  /** `s.trimStart()`: drops the leading whitespace. */
  function TrimStart(s: string): (r: string)
    ensures |r| <= |s| && r == s[|s| - |r|..]
    ensures r == [] || !IsSpace(r[0])
    ensures forall i :: 0 <= i < |s| - |r| ==> IsSpace(s[i])
  {
    if s != [] && IsSpace(s[0]) then
      var r := TrimStart(s[1..]);
      assert s[1..][|s| - 1 - |r|..] == s[|s| - |r|..];
      assert forall i :: 1 <= i < |s| ==> s[i] == s[1..][i - 1];
      r
    else s
  }

  /** `s.trimEnd()`: drops the trailing whitespace. */
  function TrimEnd(s: string): (r: string)
    ensures |r| <= |s| && r == s[..|r|]
    ensures r == [] || !IsSpace(r[|r| - 1])
    ensures forall i :: |r| <= i < |s| ==> IsSpace(s[i])
  {
    if s != [] && IsSpace(s[|s| - 1]) then TrimEnd(s[..|s| - 1]) else s
  }

  /** `s.trim()`, also what a Mongoose `trim: true` setter stores. */
  function Trim(s: string): (r: string)
  {
    TrimEnd(TrimStart(s))
  }

  /** Every character of `s[lo..hi]` is whitespace. */
  predicate AllSpace(s: string, lo: nat, hi: nat)
    requires lo <= hi <= |s|
  {
    forall i :: lo <= i < hi ==> IsSpace(s[i])
  }

  /** The trimmed string is a contiguous slice of the input that neither
      starts nor ends with whitespace, and only whitespace was cut off. */
  lemma TrimIsCore(s: string)
    ensures exists a, b :: 0 <= a <= b <= |s| && Trim(s) == s[a..b] && AllSpace(s, 0, a) && AllSpace(s, b, |s|)
    ensures Trim(s) == [] || (!IsSpace(Trim(s)[0]) && !IsSpace(Trim(s)[|Trim(s)| - 1]))
  {
    var t := TrimStart(s);
    var r := TrimEnd(t);
    var a := |s| - |t|;
    var b := a + |r|;
    assert t == s[a..];
    assert r == t[..|r|];
    assert r == s[a..b];
    assert AllSpace(s, 0, a);
    forall i | b <= i < |s| ensures IsSpace(s[i]) {
      assert s[i] == t[i - a];
    }
    assert AllSpace(s, b, |s|);
    if r != [] {
      assert r[0] == t[0];
    }
  }

  /** A trimmed string neither starts nor ends with whitespace. */
  lemma TrimHasNoOuterSpace(s: string)
    ensures var t := Trim(s); t == [] || (!IsSpace(t[0]) && !IsSpace(t[|t| - 1]))
  {
    var a := TrimStart(s);
    var t := TrimEnd(a);
    if t != [] {
      assert t[0] == a[0];
    }
  }

  /** Trimming twice is trimming once. */
  lemma TrimIdempotent(s: string)
    ensures Trim(Trim(s)) == Trim(s)
  {
    var r := Trim(s);
    if r != [] {
      assert !IsSpace(TrimEnd(TrimStart(s))[|r| - 1]);
      assert TrimStart(r) == r;
      assert TrimEnd(r) == r;
    }
  }

  /** ASCII lower-casing of one character. */
  function LowerChar(c: char): (r: char)
    ensures 'A' <= c <= 'Z' ==> 'a' <= r <= 'z' && r as int - c as int == 32
    ensures !('A' <= c <= 'Z') ==> r == c
  {
    if 'A' <= c <= 'Z' then (c as int + 32) as char else c
  }

  /** `s.toLowerCase()` (and a Mongoose `lowercase: true` setter) on ASCII text. */
  function Lower(s: string): (r: string)
    ensures |r| == |s|
    ensures forall i :: 0 <= i < |s| ==> r[i] == LowerChar(s[i])
  {
    seq(|s|, i requires 0 <= i < |s| => LowerChar(s[i]))
  }

  /** `array.filter(keep)`: the elements that pass, in their original order. */
  function Filter<T(==,!new)>(s: seq<T>, keep: T -> bool): (r: seq<T>)
    ensures |r| <= |s|
    ensures forall x :: x in r <==> x in s && keep(x)
  {
    if s == [] then []
    else
      assert s == [s[0]] + s[1..];
      (if keep(s[0]) then [s[0]] else []) + Filter(s[1..], keep)
  }

  /** Filtering keeps every occurrence of what passes and none of the rest. */
  lemma {:induction false} FilterMultiset<T(!new)>(s: seq<T>, keep: T -> bool, x: T)
    ensures multiset(Filter(s, keep))[x] == if keep(x) then multiset(s)[x] else 0
  {
    if s != [] {
      assert s == [s[0]] + s[1..];
      FilterMultiset(s[1..], keep, x);
    }
  }

  /** Filtering keeps the order: it distributes over concatenation. */
  lemma {:induction false} FilterAppend<T(!new)>(a: seq<T>, b: seq<T>, keep: T -> bool)
    ensures Filter(a + b, keep) == Filter(a, keep) + Filter(b, keep)
  {
    if a != [] {
      var c := a + b;
      assert c[0] == a[0] && c[1..] == a[1..] + b;
      FilterAppend(a[1..], b, keep);
      var head := if keep(a[0]) then [a[0]] else [];
      assert Filter(c, keep) == head + Filter(a[1..] + b, keep);
      assert Filter(a, keep) == head + Filter(a[1..], keep);
    } else {
      assert a + b == b;
    }
  }

  /** A list none of whose elements is dropped is left as it is. */
  lemma {:induction false} FilterKeepsAll<T(!new)>(s: seq<T>, keep: T -> bool)
    requires forall i :: 0 <= i < |s| ==> keep(s[i])
    ensures Filter(s, keep) == s
  {
    if s != [] {
      FilterKeepsAll(s[1..], keep);
    }
  }

  /** A list every element of which is dropped filters to nothing. */
  lemma {:induction false} FilterDropsAll<T(!new)>(s: seq<T>, keep: T -> bool)
    requires forall i :: 0 <= i < |s| ==> !keep(s[i])
    ensures Filter(s, keep) == []
  {
    if s != [] {
      FilterDropsAll(s[1..], keep);
    }
  }

  /** Filtering twice with the same test is filtering once. */
  lemma FilterIdempotent<T(!new)>(s: seq<T>, keep: T -> bool)
    ensures Filter(Filter(s, keep), keep) == Filter(s, keep)
  {
    var r := Filter(s, keep);
    assert forall i :: 0 <= i < |r| ==> r[i] in r;
    FilterKeepsAll(r, keep);
  }

  /** The element at `i` taken out, the others kept in order. */
  function RemoveAt<T>(s: seq<T>, i: nat): (r: seq<T>)
    requires i < |s|
    ensures |r| == |s| - 1
    ensures forall k :: 0 <= k < i ==> r[k] == s[k]
    ensures forall k :: i <= k < |r| ==> r[k] == s[k + 1]
  {
    s[..i] + s[i + 1..]
  }

  /** Taking out one element removes exactly one occurrence of it. */
  lemma RemoveAtMultiset<T>(s: seq<T>, i: nat)
    requires i < |s|
    ensures multiset(RemoveAt(s, i)) + multiset{s[i]} == multiset(s)
  {
    assert s == s[..i] + [s[i]] + s[i + 1..];
  }

  /** JavaScript's `length` of a string: the number of UTF-16 code units,
      so a character outside the Basic Multilingual Plane counts twice. */
  function Utf16Length(s: string): (r: nat)
    ensures |s| <= r <= 2 * |s|
    ensures (forall i :: 0 <= i < |s| ==> s[i] as int <= 0xFFFF) ==> r == |s|
  {
    if s == [] then 0
    else
      assert forall i :: 1 <= i < |s| ==> s[1..][i - 1] == s[i];
      (if s[0] as int > 0xFFFF then 2 else 1) + Utf16Length(s[1..])
  }

  /** The sequence read from back to front. */
  function Reverse<T>(s: seq<T>): (r: seq<T>)
    ensures |r| == |s|
    ensures forall i :: 0 <= i < |s| ==> r[i] == s[|s| - 1 - i]
  {
    if s == [] then [] else Reverse(s[1..]) + [s[0]]
  }

  /** Reading a sequence backwards keeps its elements. */
  lemma {:induction false} ReverseMultiset<T>(s: seq<T>)
    ensures multiset(Reverse(s)) == multiset(s)
  {
    if s != [] {
      ReverseMultiset(s[1..]);
      assert s == [s[0]] + s[1..];
    }
  }

  /** The sum of `f` over the elements of `s`. */
  function SumOf<T>(f: T -> int, s: seq<T>): int
  {
    if s == [] then 0 else f(s[0]) + SumOf(f, s[1..])
  }

  lemma {:induction false} SumOfAppend<T>(f: T -> int, u: seq<T>, v: seq<T>)
    ensures SumOf(f, u + v) == SumOf(f, u) + SumOf(f, v)
  {
    if u == [] {
      assert u + v == v;
    } else {
      assert (u + v)[0] == u[0] && (u + v)[1..] == u[1..] + v;
      SumOfAppend(f, u[1..], v);
    }
  }

  /** Taking one term out of a sum. */
  lemma {:induction false} SumOfRemoveAt<T>(f: T -> int, b: seq<T>, j: nat)
    requires j < |b|
    ensures SumOf(f, b) == f(b[j]) + SumOf(f, RemoveAt(b, j))
  {
    var r := RemoveAt(b, j);
    if j == 0 {
      assert r == b[1..];
    } else {
      assert r[0] == b[0] && r[1..] == RemoveAt(b[1..], j - 1);
      SumOfRemoveAt(f, b[1..], j - 1);
    }
  }

  /** A sum does not depend on the order of its terms. */
  lemma {:induction false} SumOfPermutation<T>(f: T -> int, a: seq<T>, b: seq<T>)
    requires multiset(a) == multiset(b)
    ensures SumOf(f, a) == SumOf(f, b)
    decreases |a|
  {
    if a == [] {
      assert |b| == |multiset(b)| == 0;
    } else {
      assert a[0] in multiset(b);
      var j :| 0 <= j < |b| && b[j] == a[0];
      RemoveAtMultiset(b, j);
      assert a == [a[0]] + a[1..];
      assert multiset(a) == multiset{a[0]} + multiset(a[1..]);
      forall x ensures multiset(a[1..])[x] == multiset(RemoveAt(b, j))[x] {
        assert multiset(a)[x] == multiset{a[0]}[x] + multiset(a[1..])[x];
        assert multiset(b)[x] == multiset(RemoveAt(b, j))[x] + multiset{b[j]}[x];
      }
      SumOfPermutation(f, a[1..], RemoveAt(b, j));
      SumOfRemoveAt(f, b, j);
    }
  }

  /** Applying `f` element-wise to two permutations of each other gives two
      permutations of each other. */
  lemma {:induction false} MapPermutation<A, B>(f: A -> B, a: seq<A>, b: seq<A>, fa: seq<B>, fb: seq<B>)
    requires multiset(a) == multiset(b)
    requires |fa| == |a| && forall i :: 0 <= i < |a| ==> fa[i] == f(a[i])
    requires |fb| == |b| && forall i :: 0 <= i < |b| ==> fb[i] == f(b[i])
    ensures multiset(fa) == multiset(fb)
    decreases |a|
  {
    if a == [] {
      assert |b| == |multiset(b)| == 0;
    } else {
      assert a[0] in multiset(b);
      var j :| 0 <= j < |b| && b[j] == a[0];
      RemoveAtMultiset(b, j);
      RemoveAtMultiset(fb, j);
      assert a == [a[0]] + a[1..];
      assert fa == [fa[0]] + fa[1..];
      assert multiset(a) == multiset{a[0]} + multiset(a[1..]);
      forall x ensures multiset(a[1..])[x] == multiset(RemoveAt(b, j))[x] {
        assert multiset(a)[x] == multiset{a[0]}[x] + multiset(a[1..])[x];
        assert multiset(b)[x] == multiset(RemoveAt(b, j))[x] + multiset{b[j]}[x];
      }
      MapPermutation(f, a[1..], RemoveAt(b, j), fa[1..], RemoveAt(fb, j));
      assert fb[j] == fa[0];
    }
  }
}

=== FILE: dashboard.dfy ===
/** The dashboard page of client/src/pages/DashboardPage.js: its state (the
    two record lists, messages, forms), `loadData`, the two submit handlers
    with their payload builders, the two delete handlers, and the derived
    values `latestWeight`, `goalDelta` and "goal reached". The server's
    answers are parameters, and `Number(...)` on form text is a pair of
    parameters (`toInt`, `toReal`). */
module Dashboard {
  import opened Common
  import Workouts
  import Meals
  import UserRoutes

  /** The fields of a stored record the page looks at. Dates are instants
      in milliseconds; `date` and `createdAt` are missing when the record
      has none. */
  datatype Entry = Entry(
    oid: Option<string>, id: Option<string>, bodyWeight: Option<real>,
    date: Option<int>, createdAt: Option<int>)

  /** The signed-in user as the page knows it. */
  datatype Profile = Profile(weight: Option<real>, goalWeight: Option<real>)

  /** The two forms; every input holds text. */
  datatype WorkoutForm = WorkoutForm(
    exercise: string, duration: string, sets: string, reps: string,
    weight: string, notes: string, bodyWeight: string)

  datatype MealForm = MealForm(
    name: string, calories: string, protein: string, quantity: string,
    notes: string, bodyWeight: string)

  const DefaultWorkoutForm: WorkoutForm := WorkoutForm("", "", "", "", "", "", "")
  const DefaultMealForm: MealForm := MealForm("", "", "", "1", "", "")

  /** What one `loadData` fetch pair yields: both lists, or the message of
      the first failure. */
  datatype LoadOutcome = Loaded(workouts: seq<Entry>, meals: seq<Entry>) | LoadFailed(message: string)

  /** `pickId(item)`: `item._id || item.id`. */
  function PickId(e: Entry): (r: Option<string>)
    ensures TruthyString(e.oid) ==> r == e.oid
    ensures !TruthyString(e.oid) ==> r == e.id
  {
    if TruthyString(e.oid) then e.oid else e.id
  }

  /** The list left after deleting `id`: `prev.filter((item) => pickId(item) !== id)`. */
  function RemoveById(es: seq<Entry>, id: string): (r: seq<Entry>)
    ensures |r| <= |es|
    ensures forall e :: e in r <==> e in es && PickId(e) != Some(id)
  {
    Filter(es, (e: Entry) => PickId(e) != Some(id))
  }

  /** Deleting keeps the order: deleting from a concatenation deletes from
      each part; and deleting the same id twice is deleting it once. */
  lemma RemoveByIdKeepsOrder(a: seq<Entry>, b: seq<Entry>, id: string)
    ensures RemoveById(a + b, id) == RemoveById(a, id) + RemoveById(b, id)
    ensures RemoveById(RemoveById(a, id), id) == RemoveById(a, id)
  {
    FilterAppend(a, b, (e: Entry) => PickId(e) != Some(id));
    FilterIdempotent(a, (e: Entry) => PickId(e) != Some(id));
  }

  /** Deleting keeps every occurrence of the other entries and none of the
      entries with that id. */
  lemma RemoveByIdCounts(es: seq<Entry>, id: string, e: Entry)
    ensures multiset(RemoveById(es, id))[e] == if PickId(e) == Some(id) then 0 else multiset(es)[e]
  {
    FilterMultiset(es, (x: Entry) => PickId(x) != Some(id), e);
  }

  /** `new Date(e.date || e.createdAt || 0)` as an instant. */
  function SortKey(e: Entry): int
  {
    if e.date.Some? then e.date.value else if e.createdAt.Some? then e.createdAt.value else 0
  }

  /** Entries whose `bodyWeight` is neither undefined nor null. */
  function Weighed(es: seq<Entry>): (r: seq<Entry>)
    ensures forall e :: e in r <==> e in es && e.bodyWeight.Some?
  {
    Filter(es, (e: Entry) => e.bodyWeight.Some?)
  }

  /** The position that a stable sort by date, newest first, brings to the
      front: the first entry among those with the latest date. */
  function FirstLatest(es: seq<Entry>): (r: nat)
    requires es != []
    ensures r < |es|
    ensures forall k :: 0 <= k < |es| ==> SortKey(es[k]) <= SortKey(es[r])
    ensures forall k :: 0 <= k < r ==> SortKey(es[k]) < SortKey(es[r])
  {
    if |es| == 1 then 0
    else
      var j := FirstLatest(es[1..]);
      assert forall k :: 1 <= k < |es| ==> es[k] == es[1..][k - 1];
      if SortKey(es[0]) >= SortKey(es[1 + j]) then 0 else 1 + j
  }

  /** `latestWeight`: the body weight of the latest-dated entry carrying
      one (the first such in workouts-then-meals order when dates tie);
      otherwise the profile weight when it is truthy; otherwise null. */
  function LatestWeight(workouts: seq<Entry>, meals: seq<Entry>, profileWeight: Option<real>): (r: Option<real>)
    ensures Weighed(workouts + meals) != [] ==>
      var es := Weighed(workouts + meals);
      exists i :: 0 <= i < |es| && r == es[i].bodyWeight
        && (forall k :: 0 <= k < |es| ==> SortKey(es[k]) <= SortKey(es[i]))
        && (forall k :: 0 <= k < i ==> SortKey(es[k]) < SortKey(es[i]))
    ensures Weighed(workouts + meals) == [] ==> r == (if TruthyReal(profileWeight) then profileWeight else None)
  {
    var es := Weighed(workouts + meals);
    if es != [] then es[FirstLatest(es)].bodyWeight
    else if TruthyReal(profileWeight) then profileWeight
    else None
  }

  /** `goalDelta`: latest minus goal when both are truthy, null otherwise. */
  function GoalDelta(latest: Option<real>, goal: Option<real>): (r: Option<real>)
    ensures r.Some? <==> TruthyReal(latest) && TruthyReal(goal)
    ensures r.Some? ==> r.value + goal.value == latest.value
  {
    if TruthyReal(goal) && TruthyReal(latest) then Some(latest.value - goal.value) else None
  }

  /** `goalDelta !== null && Math.abs(goalDelta) <= 0.5`. */
  predicate GoalReached(delta: Option<real>)
  {
    delta.Some? && -0.5 <= delta.value <= 0.5
  }

  /** The goal is reached exactly when both weights are known and non-zero
      and the latest lies within half a unit of the goal. */
  lemma GoalReachedIff(latest: Option<real>, goal: Option<real>)
    ensures GoalReached(GoalDelta(latest, goal)) <==>
      TruthyReal(latest) && TruthyReal(goal) && goal.value - 0.5 <= latest.value <= goal.value + 0.5
  {
  }

  /** The profile the page gets from `/register` or `/login`: the public
      view of the user, which has a weight but no goal weight. */
  function ProfileOf(user: Option<UserRoutes.PublicUser>): Profile
  {
    if user.Some? then Profile(user.value.weight, None) else Profile(None, None)
  }

  /** Because the public view of a user carries no goal weight, a profile
      from the server never yields a goal delta, so "goal reached" never
      shows. */
  lemma ServerProfileHasNoGoalDelta(user: Option<UserRoutes.PublicUser>, workouts: seq<Entry>, meals: seq<Entry>)
    ensures var p := ProfileOf(user);
      GoalDelta(LatestWeight(workouts, meals, p.weight), p.goalWeight) == None
      && !GoalReached(GoalDelta(LatestWeight(workouts, meals, p.weight), p.goalWeight))
  {
  }

  /** The entry the page holds for a stored workout, and for a stored meal:
      the meal schema has no `bodyWeight`, so a meal entry never has one. */
  function WorkoutEntry(w: Workouts.Workout, oid: string): Entry
  {
    Entry(Some(oid), None, w.bodyWeight, w.date, None)
  }

  function MealEntry(m: Meals.Meal, oid: string): Entry
  {
    Entry(Some(oid), None, None, m.date, None)
  }

  /** The entries for a list of stored meals. */
  function MealEntries(meals: seq<Meals.Meal>, oids: seq<string>): seq<Entry>
    requires |oids| == |meals|
  {
    seq(|meals|, i requires 0 <= i < |meals| => MealEntry(meals[i], oids[i]))
  }

  /** No entry made from a stored meal carries a body weight. */
  lemma MealEntriesUnweighed(meals: seq<Meals.Meal>, oids: seq<string>)
    requires |oids| == |meals|
    ensures Weighed(MealEntries(meals, oids)) == []
  {
    FilterDropsAll(MealEntries(meals, oids), (e: Entry) => e.bodyWeight.Some?);
  }

  /** Meals read from the server never decide `latestWeight`: the body
      weight typed into the meal form is lost on the way. */
  lemma ServerMealsCarryNoWeight(workouts: seq<Entry>, meals: seq<Meals.Meal>, oids: seq<string>, profileWeight: Option<real>)
    requires |oids| == |meals|
    ensures LatestWeight(workouts, MealEntries(meals, oids), profileWeight) == LatestWeight(workouts, [], profileWeight)
  {
    var entries := MealEntries(meals, oids);
    FilterAppend(workouts, entries, (e: Entry) => e.bodyWeight.Some?);
    MealEntriesUnweighed(meals, oids);
    assert workouts + [] == workouts;
    assert Weighed(workouts + entries) == Weighed(workouts + []);
  }

  /** A workout saved from the form with a body weight is stored with that
      weight, and it is what `latestWeight` shows when it is the only
      workout, whatever meals the server holds and whatever the profile says. */
  lemma LoggedWorkoutWeightShows(f: WorkoutForm, toInt: string -> int, toReal: string -> real,
                                 id: ObjectId, caller: ObjectId, now: int, oid: string,
                                 meals: seq<Meals.Meal>, moids: seq<string>, profileWeight: Option<real>)
    requires BuildWorkoutPayload(f, toInt, toReal).Ok? && f.bodyWeight != ""
    requires |moids| == |meals|
    ensures var w := Workouts.CastWorkout(id, Some(caller), BuildWorkoutPayload(f, toInt, toReal).value, now);
      && w.Ok? && w.value.bodyWeight == Some(toReal(f.bodyWeight))
      && LatestWeight([WorkoutEntry(w.value, oid)], MealEntries(meals, moids), profileWeight) == Some(toReal(f.bodyWeight))
  {
    WorkoutPayloadAccepted(f, toInt, toReal, id, caller, now);
    var w := Workouts.CastWorkout(id, Some(caller), BuildWorkoutPayload(f, toInt, toReal).value, now).value;
    var e := WorkoutEntry(w, oid);
    ServerMealsCarryNoWeight([e], meals, moids, profileWeight);
    assert [e] + [] == [e];
    assert Weighed([e]) == [e];
  }

  /** `form.x ? Number(form.x) : undefined`, with `Number` as `convert`. */
  function Optional<T>(field: string, convert: string -> T): (r: Option<T>)
    ensures r.None? <==> field == ""
    ensures r.Some? ==> r.value == convert(field)
  {
    if field != "" then Some(convert(field)) else None
  }

  /** `form.x ? Number(form.x) : fallback`. */
  function IntOr(field: string, toInt: string -> int, fallback: int): (r: int)
    ensures field == "" ==> r == fallback
  {
    if field != "" then toInt(field) else fallback
  }

  /** The workout payload. A name that is blank after trimming is refused
      before any request; otherwise the name and the notes are sent
      trimmed, and an empty numeric field is left out. */
  function BuildWorkoutPayload(f: WorkoutForm, toInt: string -> int, toReal: string -> real)
    : (r: Result<Workouts.WorkoutBody, string>)
    ensures r.Err? <==> Trim(f.exercise) == []
    ensures r.Err? ==> r.error == "Exercise name is required."
    ensures r.Ok? ==> (
      && r.value.userId.None? && r.value.date.Absent?
      && r.value.exercise == Some(Trim(f.exercise)) && r.value.notes == Some(Trim(f.notes))
      && (r.value.duration.None? <==> f.duration == "") && (r.value.sets.None? <==> f.sets == "")
      && (r.value.reps.None? <==> f.reps == "") && (r.value.weight.None? <==> f.weight == "")
      && (r.value.bodyWeight.None? <==> f.bodyWeight == ""))
  {
    if Trim(f.exercise) == [] then Err("Exercise name is required.")
    else Ok(Workouts.WorkoutBody(
      None, Absent, Some(Trim(f.exercise)),
      Optional(f.duration, toInt), Optional(f.sets, toInt), Optional(f.reps, toInt),
      Optional(f.weight, toReal), Optional(f.bodyWeight, toReal), Some(Trim(f.notes))))
  }

  /** The client's check and the server's agree: a payload the page sends is
      one the server stores, under the trimmed name, for the caller. */
  lemma WorkoutPayloadAccepted(f: WorkoutForm, toInt: string -> int, toReal: string -> real,
                               id: ObjectId, caller: ObjectId, now: int)
    requires BuildWorkoutPayload(f, toInt, toReal).Ok?
    ensures var body := BuildWorkoutPayload(f, toInt, toReal).value;
      && Workouts.CastWorkout(id, Some(caller), body, now).Ok?
      && Workouts.CastWorkout(id, Some(caller), body, now).value.exercise == Trim(f.exercise)
      && Workouts.CastWorkout(id, Some(caller), body, now).value.date == Some(now)
  {
    TrimIdempotent(f.exercise);
  }

  /** The meal payload: one item with the trimmed name, calories and protein
      defaulting to 0 and quantity to 1 when empty; the notes trimmed; the
      body weight left out when empty. A blank name is refused before any
      request. */
  function BuildMealPayload(f: MealForm, toInt: string -> int, toReal: string -> real)
    : (r: Result<Meals.MealBody, string>)
    ensures r.Err? <==> Trim(f.name) == []
    ensures r.Err? ==> r.error == "Meal name is required."
    ensures r.Ok? ==> (
      && r.value.userId.None? && r.value.date.Absent?
      && r.value.totalCalories.None? && r.value.totalProtein.None?
      && r.value.items == Given([Meals.MealItemBody(
           Some(Trim(f.name)), Some(IntOr(f.calories, toInt, 0)),
           Some(IntOr(f.protein, toInt, 0)), Given(IntOr(f.quantity, toInt, 1)))])
      && r.value.notes == Some(Trim(f.notes))
      && (r.value.bodyWeight.None? <==> f.bodyWeight == ""))
  {
    if Trim(f.name) == [] then Err("Meal name is required.")
    else Ok(Meals.MealBody(
      None,
      Given([Meals.MealItemBody(Some(Trim(f.name)), Some(IntOr(f.calories, toInt, 0)),
                                Some(IntOr(f.protein, toInt, 0)), Given(IntOr(f.quantity, toInt, 1)))]),
      None, None, Absent, Some(Trim(f.notes)), Optional(f.bodyWeight, toReal)))
  }

  /** A meal the page sends is stored with totals equal to the form's
      calories and protein times its quantity. */
  lemma MealPayloadTotals(f: MealForm, toInt: string -> int, toReal: string -> real,
                          id: ObjectId, caller: ObjectId, now: int)
    requires BuildMealPayload(f, toInt, toReal).Ok?
    ensures var body := BuildMealPayload(f, toInt, toReal).value;
      && Meals.CastMeal(id, Some(caller), body, now).Ok?
      && var stored := Meals.Saved(Meals.CastMeal(id, Some(caller), body, now).value);
      && stored.totalCalories == IntOr(f.calories, toInt, 0) * IntOr(f.quantity, toInt, 1)
      && stored.totalProtein == IntOr(f.protein, toInt, 0) * IntOr(f.quantity, toInt, 1)
  {
    var body := BuildMealPayload(f, toInt, toReal).value;
    TrimIdempotent(f.name);
    var ib := Meals.MealItemBody(Some(Trim(f.name)), Some(IntOr(f.calories, toInt, 0)),
                                 Some(IntOr(f.protein, toInt, 0)), Given(IntOr(f.quantity, toInt, 1)));
    assert body.items == Given([ib]);
    Meals.CastOneItem(ib);
    var it := Meals.CastItem(ib).value;
    assert it.calories == Some(IntOr(f.calories, toInt, 0)) && it.protein == Some(IntOr(f.protein, toInt, 0));
    assert it.quantity == Some(IntOr(f.quantity, toInt, 1));
    var m := Meals.CastMeal(id, Some(caller), body, now).value;
    assert m.items == [it];
    var cal, prot, q := IntOr(f.calories, toInt, 0), IntOr(f.protein, toInt, 0), IntOr(f.quantity, toInt, 1);
    Meals.ItemContributions(it, cal, prot, q);
    Meals.SavedOneItem(m, it);
  }

  /** One form together with the success message and the error line shown
      under it (`workoutForm`, `workoutMessage`, `workoutError`, and the meal
      counterparts). */
  datatype Panel<F> = Panel(form: F, message: string, error: string)

  /** The page's state. */
  class DashboardState {
    var workouts: seq<Entry>
    var meals: seq<Entry>
    var workoutPanel: Panel<WorkoutForm>
    var mealPanel: Panel<MealForm>
    var loadError: string
    var isSyncing: bool

    constructor ()
      ensures workouts == [] && meals == [] && loadError == "" && !isSyncing
      ensures workoutPanel == Panel(DefaultWorkoutForm, "", "") && mealPanel == Panel(DefaultMealForm, "", "")
    {
      workouts, meals := [], [];
      workoutPanel, mealPanel := Panel(DefaultWorkoutForm, "", ""), Panel(DefaultMealForm, "", "");
      loadError, isSyncing := "", false;
    }

    /** `loadData`. Without a token nothing happens. Otherwise both lists
        are replaced on success; on failure both lists stay and the
        message is shown. Syncing is over either way. */
    method LoadData(token: string, outcome: LoadOutcome)
      modifies this
      ensures workoutPanel == old(workoutPanel) && mealPanel == old(mealPanel)
      ensures token == "" ==> (
        && workouts == old(workouts) && meals == old(meals)
        && loadError == old(loadError) && isSyncing == old(isSyncing))
      ensures token != "" && outcome.Loaded? ==> (
        && workouts == outcome.workouts && meals == outcome.meals
        && loadError == "" && !isSyncing)
      ensures token != "" && outcome.LoadFailed? ==> (
        && workouts == old(workouts) && meals == old(meals)
        && loadError == outcome.message && !isSyncing)
    {
      if token == "" {
        return;
      }
      isSyncing := true;
      loadError := "";
      match outcome {
        case Loaded(ws, ms) =>
          workouts := ws;
          meals := ms;
        case LoadFailed(message) =>
          loadError := message;
      }
      isSyncing := false;
    }

    /** `handleWorkoutSubmit`. The request it sends is returned; `posted`
        is the server's answer (None for success, or the error message) and
        `reload` the outcome of the `loadData` that follows a success. A name
        that is blank after trimming (the payload builder's `Err`) sends
        nothing and changes nothing but the panel's lines. */
    method SubmitWorkout(token: string, toInt: string -> int, toReal: string -> real,
                         posted: Option<string>, reload: LoadOutcome)
      returns (request: Option<Workouts.WorkoutBody>)
      modifies this
      ensures mealPanel == old(mealPanel)
      ensures var built := BuildWorkoutPayload(old(workoutPanel).form, toInt, toReal);
        && (built.Err? ==> (
              && request.None? && workoutPanel == old(workoutPanel).(message := "", error := built.error)
              && workouts == old(workouts) && meals == old(meals)
              && loadError == old(loadError) && isSyncing == old(isSyncing)))
        && (built.Ok? ==> request == Some(built.value))
        && (built.Ok? && posted.Some? ==> (
              && workoutPanel == old(workoutPanel).(message := "", error := posted.value)
              && workouts == old(workouts) && meals == old(meals)
              && loadError == old(loadError) && isSyncing == old(isSyncing)))
        && (built.Ok? && posted.None? ==> (
              && workoutPanel == Panel(DefaultWorkoutForm, "Workout saved..", "")
              && (token == "" ==> (
                    && workouts == old(workouts) && meals == old(meals)
                    && loadError == old(loadError) && isSyncing == old(isSyncing)))
              && (token != "" ==> !isSyncing && loadError == (if reload.LoadFailed? then reload.message else ""))
              && (token != "" && reload.Loaded? ==> workouts == reload.workouts && meals == reload.meals)
              && (token != "" && reload.LoadFailed? ==> workouts == old(workouts) && meals == old(meals))))
    {
      var built := BuildWorkoutPayload(workoutPanel.form, toInt, toReal);
      request := SettleWorkout(built, token, posted, reload);
    }

    /** What `handleWorkoutSubmit` does once the payload is built. */
    method SettleWorkout(built: Result<Workouts.WorkoutBody, string>, token: string,
                         posted: Option<string>, reload: LoadOutcome)
      returns (request: Option<Workouts.WorkoutBody>)
      modifies this
      ensures mealPanel == old(mealPanel)
      ensures built.Err? ==> (
        && request.None? && workoutPanel == old(workoutPanel).(message := "", error := built.error)
        && workouts == old(workouts) && meals == old(meals)
        && loadError == old(loadError) && isSyncing == old(isSyncing))
      ensures built.Ok? ==> request == Some(built.value)
      ensures built.Ok? && posted.Some? ==> (
        && workoutPanel == old(workoutPanel).(message := "", error := posted.value)
        && workouts == old(workouts) && meals == old(meals)
        && loadError == old(loadError) && isSyncing == old(isSyncing))
      ensures built.Ok? && posted.None? ==> (
        && workoutPanel == Panel(DefaultWorkoutForm, "Workout saved..", "")
        && (token == "" ==> (
              && workouts == old(workouts) && meals == old(meals)
              && loadError == old(loadError) && isSyncing == old(isSyncing)))
        && (token != "" ==> !isSyncing && loadError == (if reload.LoadFailed? then reload.message else ""))
        && (token != "" && reload.Loaded? ==> workouts == reload.workouts && meals == reload.meals)
        && (token != "" && reload.LoadFailed? ==> workouts == old(workouts) && meals == old(meals)))
    {
      if built.Err? {
        workoutPanel := workoutPanel.(message := "", error := built.error);
        request := None;
      } else {
        request := Some(built.value);
        if posted.Some? {
          workoutPanel := workoutPanel.(message := "", error := posted.value);
        } else {
          workoutPanel := Panel(DefaultWorkoutForm, "Workout saved..", "");
          LoadData(token, reload);
        }
      }
    }

    /** `handleMealSubmit`. The request it sends is returned; `posted`
        is the server's answer (None for success, or the error message) and
        `reload` the outcome of the `loadData` that follows a success. A name
        that is blank after trimming (the payload builder's `Err`) sends
        nothing and changes nothing but the panel's lines. */
    method SubmitMeal(token: string, toInt: string -> int, toReal: string -> real,
                         posted: Option<string>, reload: LoadOutcome)
      returns (request: Option<Meals.MealBody>)
      modifies this
      ensures workoutPanel == old(workoutPanel)
      ensures var built := BuildMealPayload(old(mealPanel).form, toInt, toReal);
        && (built.Err? ==> (
              && request.None? && mealPanel == old(mealPanel).(message := "", error := built.error)
              && workouts == old(workouts) && meals == old(meals)
              && loadError == old(loadError) && isSyncing == old(isSyncing)))
        && (built.Ok? ==> request == Some(built.value))
        && (built.Ok? && posted.Some? ==> (
              && mealPanel == old(mealPanel).(message := "", error := posted.value)
              && workouts == old(workouts) && meals == old(meals)
              && loadError == old(loadError) && isSyncing == old(isSyncing)))
        && (built.Ok? && posted.None? ==> (
              && mealPanel == Panel(DefaultMealForm, "Meal saved.", "")
              && (token == "" ==> (
                    && workouts == old(workouts) && meals == old(meals)
                    && loadError == old(loadError) && isSyncing == old(isSyncing)))
              && (token != "" ==> !isSyncing && loadError == (if reload.LoadFailed? then reload.message else ""))
              && (token != "" && reload.Loaded? ==> workouts == reload.workouts && meals == reload.meals)
              && (token != "" && reload.LoadFailed? ==> workouts == old(workouts) && meals == old(meals))))
    {
      var built := BuildMealPayload(mealPanel.form, toInt, toReal);
      request := SettleMeal(built, token, posted, reload);
    }

    /** What `handleMealSubmit` does once the payload is built. */
    method SettleMeal(built: Result<Meals.MealBody, string>, token: string,
                         posted: Option<string>, reload: LoadOutcome)
      returns (request: Option<Meals.MealBody>)
      modifies this
      ensures workoutPanel == old(workoutPanel)
      ensures built.Err? ==> (
        && request.None? && mealPanel == old(mealPanel).(message := "", error := built.error)
        && workouts == old(workouts) && meals == old(meals)
        && loadError == old(loadError) && isSyncing == old(isSyncing))
      ensures built.Ok? ==> request == Some(built.value)
      ensures built.Ok? && posted.Some? ==> (
        && mealPanel == old(mealPanel).(message := "", error := posted.value)
        && workouts == old(workouts) && meals == old(meals)
        && loadError == old(loadError) && isSyncing == old(isSyncing))
      ensures built.Ok? && posted.None? ==> (
        && mealPanel == Panel(DefaultMealForm, "Meal saved.", "")
        && (token == "" ==> (
              && workouts == old(workouts) && meals == old(meals)
              && loadError == old(loadError) && isSyncing == old(isSyncing)))
        && (token != "" ==> !isSyncing && loadError == (if reload.LoadFailed? then reload.message else ""))
        && (token != "" && reload.Loaded? ==> workouts == reload.workouts && meals == reload.meals)
        && (token != "" && reload.LoadFailed? ==> workouts == old(workouts) && meals == old(meals)))
    {
      if built.Err? {
        mealPanel := mealPanel.(message := "", error := built.error);
        request := None;
      } else {
        request := Some(built.value);
        if posted.Some? {
          mealPanel := mealPanel.(message := "", error := posted.value);
        } else {
          mealPanel := Panel(DefaultMealForm, "Meal saved.", "");
          LoadData(token, reload);
        }
      }
    }

    /** `handleDeleteWorkout(id)`: on success the entries with that id are
        dropped and the rest keep their order; on failure the list stays and
        the message is shown. */
    method DeleteWorkout(id: string, failed: Option<string>)
      modifies this
      ensures meals == old(meals) && loadError == old(loadError) && isSyncing == old(isSyncing)
      ensures mealPanel == old(mealPanel)
      ensures failed.None? ==> workouts == RemoveById(old(workouts), id) && workoutPanel == old(workoutPanel).(error := "")
      ensures failed.Some? ==> workouts == old(workouts) && workoutPanel == old(workoutPanel).(error := failed.value)
    {
      if failed.None? {
        workouts := RemoveById(workouts, id);
        workoutPanel := workoutPanel.(error := "");
      } else {
        workoutPanel := workoutPanel.(error := failed.value);
      }
    }

    /** `handleDeleteMeal(id)`, in the same shape. */
    method DeleteMeal(id: string, failed: Option<string>)
      modifies this
      ensures workouts == old(workouts) && loadError == old(loadError) && isSyncing == old(isSyncing)
      ensures workoutPanel == old(workoutPanel)
      ensures failed.None? ==> meals == RemoveById(old(meals), id) && mealPanel == old(mealPanel).(error := "")
      ensures failed.Some? ==> meals == old(meals) && mealPanel == old(mealPanel).(error := failed.value)
    {
      if failed.None? {
        meals := RemoveById(meals, id);
        mealPanel := mealPanel.(error := "");
      } else {
        mealPanel := mealPanel.(error := failed.value);
      }
    }
  }
}

=== FILE: legacy_dashboard.dfy ===
/** The legacy single page of client/public/main.js: two local buffers of
    entries, the form handlers that append to them and ask the server to
    store a copy, the dashboard update that replaces a buffer with the
    server's records when it can, and the totals and progress bars computed
    over the buffers. `Date.now()` and `toLocaleTimeString()` are
    parameters (`now`, `clock`); a request is returned instead of sent. */
module LegacyDashboard {
  import opened Common
  import opened LegacyNotes
  import Workouts
  import Meals
  import MealRoutes

  /** An entry's id: the server's `_id` (or `id`) text, or a `Date.now()` stamp. */
  datatype EntryId = ServerId(text: string) | Stamp(millis: int)

  /** A workout in the local buffer. */
  datatype LocalWorkout = LocalWorkout(id: EntryId, name: string, calories: int, date: string)

  /** A meal in the local buffer. */
  datatype LocalMeal = LocalMeal(id: EntryId, name: string, calories: int, protein: int, carbs: int, fat: int)

  /** A workout record as the page reads it from `GET /api/workouts`. */
  datatype WorkoutJson = WorkoutJson(
    oid: Option<string>, id: Option<string>, exercise: Option<string>, name: Option<string>,
    notes: Option<string>, date: Option<string>)

  /** An item of a meal record as the page reads it. */
  datatype ItemJson = ItemJson(name: Option<string>, calories: Option<int>, protein: Option<int>)

  /** A meal record as the page reads it from `GET /api/meals`; a total is
      `Some` exactly when its `typeof` is "number". */
  datatype MealJson = MealJson(
    oid: Option<string>, id: Option<string>, items: Option<seq<ItemJson>>, name: Option<string>,
    totalCalories: Option<int>, totalProtein: Option<int>, notes: Option<string>)

  /** A POST the page sends: path, Authorization header and body. */
  datatype Post<B> = Post(path: string, authorization: string, body: B)

  /** How one list's response turned out: not ok, ok but its JSON could not
      be read (which throws), or ok with records. */
  datatype Reply<T> = NotOk | Unreadable | Delivered(records: T)

  /** The outcome of the two fetches of one dashboard update. */
  datatype SyncOutcome = FetchThrew | Replies(workoutReply: Reply<seq<WorkoutJson>>, mealReply: Reply<seq<MealJson>>)

  /** Everything `updateDashboard` writes into the page. */
  datatype Stats = Stats(
    totalWorkouts: nat, totalBurned: int, totalMeals: nat, totalConsumed: int,
    totalProtein: int, totalCarbs: int, totalFat: int, netCalories: int,
    proteinBar: real, carbsBar: real, fatBar: real, netBar: real)

  /** The body of the workout POST: the name and a note holding the calories. */
  function WorkoutPayload(name: string, calories: int, clock: string): Workouts.WorkoutBody
  {
    Workouts.WorkoutBody(None, Absent, Some(name), None, None, None, None, None, Some(WorkoutNote(calories, clock)))
  }

  /** The body of the meal POST: one item without a quantity, and a note
      holding the carbs and the fat. */
  function MealPayload(name: string, calories: int, protein: int, carbs: int, fat: int): Meals.MealBody
  {
    Meals.MealBody(None, Given([Meals.MealItemBody(Some(name), Some(calories), Some(protein), Absent)]),
                   None, None, Absent, Some(MealNote(carbs, fat)), None)
  }

  /** `x._id || x.id || Date.now()`. */
  function PickEntryId(oid: Option<string>, id: Option<string>, now: int): (r: EntryId)
    ensures TruthyString(oid) ==> r == ServerId(oid.value)
    ensures !TruthyString(oid) && TruthyString(id) ==> r == ServerId(id.value)
    ensures !TruthyString(oid) && !TruthyString(id) ==> r == Stamp(now)
  {
    if TruthyString(oid) then ServerId(oid.value)
    else if TruthyString(id) then ServerId(id.value)
    else Stamp(now)
  }

  /** `x || 0` for an optional number. */
  function OrZero(x: Option<int>): int
  {
    if x.Some? then x.value else 0
  }

  /** The `workoutsFromDb.map(...)` callback: the calories come back out of
      the note, 0 when it holds none. */
  function NormalizeWorkout(w: WorkoutJson, now: int, clock: string): (r: LocalWorkout)
    ensures r.calories == ParseField(w.notes, CaloriesKey) && r.calories >= 0
    ensures r.name == if TruthyString(w.exercise) then w.exercise.value
                      else if TruthyString(w.name) then w.name.value else "Workout"
  {
    LocalWorkout(PickEntryId(w.oid, w.id, now),
                 if TruthyString(w.exercise) then w.exercise.value
                 else if TruthyString(w.name) then w.name.value else "Workout",
                 ParseField(w.notes, CaloriesKey),
                 if TruthyString(w.date) then w.date.value else clock)
  }

  /** `m.items && m.items[0] ? m.items[0] : {}`. */
  function FirstItem(m: MealJson): ItemJson
  {
    if m.items.Some? && |m.items.value| > 0 then m.items.value[0] else ItemJson(None, None, None)
  }

  /** The `mealsFromDb.map(...)` callback. Calories and protein are the
      numeric totals when the record has them, else the first item's
      values, else 0; carbs and fat come out of the note, 0 when it holds
      none. */
  function NormalizeMeal(m: MealJson, now: int): (r: LocalMeal)
    ensures m.totalCalories.Some? ==> r.calories == m.totalCalories.value
    ensures m.totalCalories.None? ==> r.calories == OrZero(FirstItem(m).calories)
    ensures m.totalProtein.Some? ==> r.protein == m.totalProtein.value
    ensures m.totalProtein.None? ==> r.protein == OrZero(FirstItem(m).protein)
    ensures r.carbs == ParseField(m.notes, CarbsKey) && r.fat == ParseField(m.notes, FatKey)
    ensures r.carbs >= 0 && r.fat >= 0
  {
    var first := FirstItem(m);
    LocalMeal(PickEntryId(m.oid, m.id, now),
              if TruthyString(first.name) then first.name.value
              else if TruthyString(m.name) then m.name.value else "Meal",
              if m.totalCalories.Some? then m.totalCalories.value else OrZero(first.calories),
              if m.totalProtein.Some? then m.totalProtein.value else OrZero(first.protein),
              ParseField(m.notes, CarbsKey),
              ParseField(m.notes, FatKey))
  }

  /** The two `map` calls over the records read from the server. */
  function NormalizeWorkouts(ws: seq<WorkoutJson>, now: int, clock: string): seq<LocalWorkout>
  {
    seq(|ws|, i requires 0 <= i < |ws| => NormalizeWorkout(ws[i], now, clock))
  }

  function NormalizeMeals(ms: seq<MealJson>, now: int): seq<LocalMeal>
  {
    seq(|ms|, i requires 0 <= i < |ms| => NormalizeMeal(ms[i], now))
  }

  /** The server's copies of workouts logged on the page (each sent with
      the clock text it was logged at), stored in order under `ids`, and
      their JSON. */
  function StoredWorkouts(logged: seq<LocalWorkout>, ids: seq<ObjectId>, owner: ObjectId, created: int): seq<Workouts.Workout>
    requires |ids| == |logged|
    requires forall i :: 0 <= i < |logged| ==> Trim(logged[i].name) != []
  {
    seq(|logged|, i requires 0 <= i < |logged| =>
      Workouts.CastWorkout(ids[i], Some(owner), WorkoutPayload(logged[i].name, logged[i].calories, logged[i].date), created).value)
  }

  function WorkoutsToJson(ws: seq<Workouts.Workout>, iso: int -> string): seq<WorkoutJson>
  {
    seq(|ws|, i requires 0 <= i < |ws| => WorkoutToJson(ws[i], iso))
  }

  /** The server's copies of meals logged on the page, stored in order under
      `ids` and saved by the pre-save hook, and their JSON. */
  function StoredMeal(logged: LocalMeal, id: ObjectId, owner: ObjectId, created: int): Meals.Meal
    requires Trim(logged.name) != []
  {
    Meals.CastOneItem(Meals.MealItemBody(Some(logged.name), Some(logged.calories), Some(logged.protein), Absent));
    var body := MealPayload(logged.name, logged.calories, logged.protein, logged.carbs, logged.fat);
    Meals.Saved(Meals.CastMeal(id, Some(owner), body, created).value)
  }

  function StoredMeals(logged: seq<LocalMeal>, ids: seq<ObjectId>, owner: ObjectId, created: int): seq<Meals.Meal>
    requires |ids| == |logged|
    requires forall i :: 0 <= i < |logged| ==> Trim(logged[i].name) != []
  {
    seq(|logged|, i requires 0 <= i < |logged| => StoredMeal(logged[i], ids[i], owner, created))
  }

  function MealsToJson(ms: seq<Meals.Meal>): seq<MealJson>
  {
    seq(|ms|, i requires 0 <= i < |ms| => MealToJson(ms[i]))
  }

  /** Workouts logged on the page with non-negative calories, stored by the
      server and read back by a later dashboard update come back in order,
      each under its server id with its trimmed name and its calories, so
      the calories burned are the same before and after the update. */
  lemma LoggedWorkoutsSurviveServer(logged: seq<LocalWorkout>, ids: seq<ObjectId>, owner: ObjectId, created: int,
                                    iso: int -> string, now: int, clock: string)
    requires |ids| == |logged|
    requires forall i :: 0 <= i < |logged| ==> Trim(logged[i].name) != [] && logged[i].calories >= 0
    ensures var back := NormalizeWorkouts(WorkoutsToJson(StoredWorkouts(logged, ids, owner, created), iso), now, clock);
      && |back| == |logged|
      && (forall i :: 0 <= i < |logged| ==>
            back[i].id == ServerId(NatToString(ids[i])) && back[i].name == Trim(logged[i].name)
            && back[i].calories == logged[i].calories)
      && Burned(back) == Burned(logged)
  {
    var back := NormalizeWorkouts(WorkoutsToJson(StoredWorkouts(logged, ids, owner, created), iso), now, clock);
    forall i | 0 <= i < |logged|
      ensures back[i].id == ServerId(NatToString(ids[i])) && back[i].name == Trim(logged[i].name)
      ensures back[i].calories == logged[i].calories
    {
      WorkoutSurvivesServer(logged[i].name, logged[i].calories, logged[i].date, ids[i], owner, created, iso, now, clock);
    }
    BurnedAgrees(back, logged);
  }

  /** Meals logged on the page with non-negative carbs and fat, stored by
      the server and read back by a later dashboard update come back in
      order, each as it was logged but under its server id and with its
      name trimmed, so every macro total is the same before and after the
      update. */
  lemma LoggedMealsSurviveServer(logged: seq<LocalMeal>, ids: seq<ObjectId>, owner: ObjectId, created: int, now: int)
    requires |ids| == |logged|
    requires forall i :: 0 <= i < |logged| ==> Trim(logged[i].name) != [] && logged[i].carbs >= 0 && logged[i].fat >= 0
    ensures var back := NormalizeMeals(MealsToJson(StoredMeals(logged, ids, owner, created)), now);
      && |back| == |logged|
      && (forall i :: 0 <= i < |logged| ==>
            back[i] == logged[i].(id := ServerId(NatToString(ids[i])), name := Trim(logged[i].name)))
      && forall k :: MealSum(back, k) == MealSum(logged, k)
  {
    var stored := StoredMeals(logged, ids, owner, created);
    var back := NormalizeMeals(MealsToJson(stored), now);
    forall i | 0 <= i < |logged|
      ensures back[i] == logged[i].(id := ServerId(NatToString(ids[i])), name := Trim(logged[i].name))
      ensures back[i].calories == logged[i].calories && back[i].protein == logged[i].protein
      ensures back[i].carbs == logged[i].carbs && back[i].fat == logged[i].fat
    {
      assert back[i] == NormalizeMeal(MealToJson(StoredMeal(logged[i], ids[i], owner, created)), now);
      StoredMealReadsBack(logged[i], ids[i], owner, created, now);
    }
    MealSumsAgree(back, logged);
  }

  /** One logged meal, stored and read back, is the logged meal under its
      server id and with its name trimmed. */
  lemma StoredMealReadsBack(l: LocalMeal, id: ObjectId, owner: ObjectId, created: int, now: int)
    requires Trim(l.name) != [] && l.carbs >= 0 && l.fat >= 0
    ensures NormalizeMeal(MealToJson(StoredMeal(l, id, owner, created)), now)
         == l.(id := ServerId(NatToString(id)), name := Trim(l.name))
  {
    MealSurvivesServer(l.name, l.calories, l.protein, l.carbs, l.fat, id, owner, created, now);
  }

  /** Read back in the order they were stored, the logged entries give the
      statistics the page computed from its own buffers. */
  lemma StoredOrderKeepsStats(workouts: seq<LocalWorkout>, wids: seq<ObjectId>, meals: seq<LocalMeal>, mids: seq<ObjectId>,
                       owner: ObjectId, created: int, iso: int -> string, now: int, clock: string)
    requires |wids| == |workouts| && |mids| == |meals|
    requires forall i :: 0 <= i < |workouts| ==> Trim(workouts[i].name) != [] && workouts[i].calories >= 0
    requires forall i :: 0 <= i < |meals| ==> Trim(meals[i].name) != [] && meals[i].carbs >= 0 && meals[i].fat >= 0
    ensures StatsOf(NormalizeWorkouts(WorkoutsToJson(StoredWorkouts(workouts, wids, owner, created), iso), now, clock),
                    NormalizeMeals(MealsToJson(StoredMeals(meals, mids, owner, created)), now))
         == StatsOf(workouts, meals)
  {
    var bw := NormalizeWorkouts(WorkoutsToJson(StoredWorkouts(workouts, wids, owner, created), iso), now, clock);
    var bm := NormalizeMeals(MealsToJson(StoredMeals(meals, mids, owner, created)), now);
    LoggedWorkoutsSurviveServer(workouts, wids, owner, created, iso, now, clock);
    LoggedMealsSurviveServer(meals, mids, owner, created, now);
    assert |bw| == |workouts| && Burned(bw) == Burned(workouts);
    assert |bm| == |meals| && MealSum(bm, Energy) == MealSum(meals, Energy);
    assert MealSum(bm, Protein) == MealSum(meals, Protein) && MealSum(bm, Carbs) == MealSum(meals, Carbs);
    assert MealSum(bm, Fat) == MealSum(meals, Fat);
    StatsAgree(bw, bm, workouts, meals);
  }

  /** So a dashboard update right after logging shows the same statistics
      as the page showed from its own buffers, in whatever order the server
      sends the stored workouts and meals back. */
  lemma SyncKeepsStats(workouts: seq<LocalWorkout>, wids: seq<ObjectId>, meals: seq<LocalMeal>, mids: seq<ObjectId>,
                       owner: ObjectId, created: int, iso: int -> string, now: int, clock: string,
                       wsent: seq<Workouts.Workout>, msent: seq<Meals.Meal>)
    requires |wids| == |workouts| && |mids| == |meals|
    requires forall i :: 0 <= i < |workouts| ==> Trim(workouts[i].name) != [] && workouts[i].calories >= 0
    requires forall i :: 0 <= i < |meals| ==> Trim(meals[i].name) != [] && meals[i].carbs >= 0 && meals[i].fat >= 0
    requires multiset(wsent) == multiset(StoredWorkouts(workouts, wids, owner, created))
    requires multiset(msent) == multiset(StoredMeals(meals, mids, owner, created))
    ensures StatsOf(NormalizeWorkouts(WorkoutsToJson(wsent, iso), now, clock), NormalizeMeals(MealsToJson(msent), now))
         == StatsOf(workouts, meals)
  {
    var sw := StoredWorkouts(workouts, wids, owner, created);
    var sm := StoredMeals(meals, mids, owner, created);
    var readW := (w: Workouts.Workout) => NormalizeWorkout(WorkoutToJson(w, iso), now, clock);
    var readM := (m: Meals.Meal) => NormalizeMeal(MealToJson(m), now);
    MapPermutation(readW, wsent, sw, NormalizeWorkouts(WorkoutsToJson(wsent, iso), now, clock),
                   NormalizeWorkouts(WorkoutsToJson(sw, iso), now, clock));
    MapPermutation(readM, msent, sm, NormalizeMeals(MealsToJson(msent), now), NormalizeMeals(MealsToJson(sm), now));
    StatsIgnoreOrder(NormalizeWorkouts(WorkoutsToJson(wsent, iso), now, clock), NormalizeMeals(MealsToJson(msent), now),
                     NormalizeWorkouts(WorkoutsToJson(sw, iso), now, clock), NormalizeMeals(MealsToJson(sm), now));
    StoredOrderKeepsStats(workouts, wids, meals, mids, owner, created, iso, now, clock);
  }

  /** The orders `GET /api/workouts` and `GET /api/meals` answer in: the
      workouts by `_id` descending, which for ids handed out in increasing
      order is the stored order reversed, and the meals newest date first. */
  lemma ServerOrderKeepsStats(workouts: seq<LocalWorkout>, wids: seq<ObjectId>, meals: seq<LocalMeal>, mids: seq<ObjectId>,
                              owner: ObjectId, created: int, iso: int -> string, now: int, clock: string)
    requires |wids| == |workouts| && |mids| == |meals|
    requires forall i :: 0 <= i < |workouts| ==> Trim(workouts[i].name) != [] && workouts[i].calories >= 0
    requires forall i :: 0 <= i < |meals| ==> Trim(meals[i].name) != [] && meals[i].carbs >= 0 && meals[i].fat >= 0
    ensures var wsent := Reverse(StoredWorkouts(workouts, wids, owner, created));
      var msent := MealRoutes.SortByDateDesc(StoredMeals(meals, mids, owner, created));
      StatsOf(NormalizeWorkouts(WorkoutsToJson(wsent, iso), now, clock), NormalizeMeals(MealsToJson(msent), now))
      == StatsOf(workouts, meals)
  {
    ReverseMultiset(StoredWorkouts(workouts, wids, owner, created));
    SyncKeepsStats(workouts, wids, meals, mids, owner, created, iso, now, clock,
                   Reverse(StoredWorkouts(workouts, wids, owner, created)),
                   MealRoutes.SortByDateDesc(StoredMeals(meals, mids, owner, created)));
  }

  /** Buffers holding the same entries, in any order, give the same
      statistics. */
  lemma StatsIgnoreOrder(ws: seq<LocalWorkout>, ms: seq<LocalMeal>, ws': seq<LocalWorkout>, ms': seq<LocalMeal>)
    requires multiset(ws) == multiset(ws') && multiset(ms) == multiset(ms')
    ensures StatsOf(ws, ms) == StatsOf(ws', ms')
  {
    assert |ws| == |multiset(ws)| == |ws'|;
    assert |ms| == |multiset(ms)| == |ms'|;
    var cal := (w: LocalWorkout) => w.calories;
    BurnedIsSum(ws, cal);
    BurnedIsSum(ws', cal);
    SumOfPermutation(cal, ws, ws');
    forall k ensures MealSum(ms, k) == MealSum(ms', k) {
      var macro := (m: LocalMeal) => MacroOf(m, k);
      MealSumIsSum(ms, k, macro);
      MealSumIsSum(ms', k, macro);
      SumOfPermutation(macro, ms, ms');
    }
    StatsAgree(ws, ms, ws', ms');
  }

  lemma {:induction false} BurnedIsSum(ws: seq<LocalWorkout>, cal: LocalWorkout -> int)
    requires forall w :: cal(w) == w.calories
    ensures Burned(ws) == SumOf(cal, ws)
  {
    if ws != [] {
      var n := |ws|;
      assert ws == ws[..n - 1] + [ws[n - 1]];
      assert [ws[n - 1]][1..] == [];
      BurnedIsSum(ws[..n - 1], cal);
      SumOfAppend(cal, ws[..n - 1], [ws[n - 1]]);
    }
  }

  lemma {:induction false} MealSumIsSum(ms: seq<LocalMeal>, k: Macro, macro: LocalMeal -> int)
    requires forall m :: macro(m) == MacroOf(m, k)
    ensures MealSum(ms, k) == SumOf(macro, ms)
  {
    if ms != [] {
      var n := |ms|;
      assert ms == ms[..n - 1] + [ms[n - 1]];
      assert [ms[n - 1]][1..] == [];
      MealSumIsSum(ms[..n - 1], k, macro);
      SumOfAppend(macro, ms[..n - 1], [ms[n - 1]]);
    }
  }

  /** Left folds over the buffers, in `forEach` order. */
  function Burned(ws: seq<LocalWorkout>): int
  {
    if ws == [] then 0 else Burned(ws[..|ws| - 1]) + ws[|ws| - 1].calories
  }

  datatype Macro = Energy | Protein | Carbs | Fat

  function MacroOf(m: LocalMeal, k: Macro): int
  {
    match k
    case Energy => m.calories
    case Protein => m.protein
    case Carbs => m.carbs
    case Fat => m.fat
  }

  function MealSum(ms: seq<LocalMeal>, k: Macro): int
  {
    if ms == [] then 0 else MealSum(ms[..|ms| - 1], k) + MacroOf(ms[|ms| - 1], k)
  }

  function MinReal(a: real, b: real): real { if a <= b then a else b }
  function MaxReal(a: real, b: real): real { if a >= b then a else b }

  /** `Math.min((total / scale) * 100, 100)`: a percentage capped at 100
      from above only. It reaches 100 exactly when the total reaches the
      scale, and it is never negative for a non-negative total. */
  function MacroBar(total: int, scale: nat): (r: real)
    requires scale > 0
    ensures r <= 100.0
    ensures r == 100.0 <==> total >= scale
    ensures total >= 0 ==> r >= 0.0
    ensures total < 0 ==> r < 0.0
  {
    var fraction := total as real / scale as real;
    assert fraction * scale as real == total as real;
    assert fraction >= 1.0 <==> total >= scale by {
      if fraction >= 1.0 { assert fraction * scale as real >= scale as real; }
      if total >= scale { assert fraction * scale as real >= 1.0 * scale as real; }
    }
    MinReal(fraction * 100.0, 100.0)
  }

  /** The net-calorie bar: 50 at a net of 0, above 50 (up to 100) for a
      surplus, below 50 (down to 0) for a deficit. */
  function NetBar(net: int): (r: real)
    ensures net == 0 ==> r == 50.0
    ensures net > 0 ==> 50.0 < r <= 100.0
    ensures net < 0 ==> 0.0 <= r < 50.0
  {
    var shifted := 50.0 + (net as real / 2000.0 * 50.0);
    if net > 0 then MinReal(shifted, 100.0) else MaxReal(shifted, 0.0)
  }

  /** A larger net never gives a shorter bar. */
  lemma NetBarMonotone(a: int, b: int)
    requires a <= b
    ensures NetBar(a) <= NetBar(b)
  {
    var sa := 50.0 + (a as real / 2000.0 * 50.0);
    var sb := 50.0 + (b as real / 2000.0 * 50.0);
    assert sa <= sb;
  }

  /** The JSON the server sends for a stored workout. The id's hexadecimal
      text is abstracted to its decimal digits and the date's ISO text to
      `iso`. */
  function WorkoutToJson(w: Workouts.Workout, iso: int -> string): WorkoutJson
  {
    WorkoutJson(Some(NatToString(w.id)), None, Some(w.exercise), None, w.notes,
                if w.date.Some? then Some(iso(w.date.value)) else None)
  }

  /** The JSON the server sends for a stored meal. */
  function MealToJson(m: Meals.Meal): MealJson
  {
    MealJson(Some(NatToString(m.id)), None,
             Some(seq(|m.items|, i requires 0 <= i < |m.items| =>
               ItemJson(Some(m.items[i].name), m.items[i].calories, m.items[i].protein))),
             None, Some(m.totalCalories), Some(m.totalProtein), m.notes)
  }

  /** A workout logged on the page, stored by the server and read back by a
      later dashboard update comes back with its (trimmed) name and its
      calories, under the server's id. */
  lemma WorkoutSurvivesServer(name: string, calories: nat, clock: string, id: ObjectId, owner: ObjectId,
                              created: int, iso: int -> string, now: int, clock': string)
    requires Trim(name) != []
    ensures Workouts.CastWorkout(id, Some(owner), WorkoutPayload(name, calories, clock), created).Ok?
    ensures var stored := Workouts.CastWorkout(id, Some(owner), WorkoutPayload(name, calories, clock), created).value;
      var back := NormalizeWorkout(WorkoutToJson(stored, iso), now, clock');
      back.id == ServerId(NatToString(id)) && back.name == Trim(name) && back.calories == calories
  {
    TrimmedWorkoutNoteRoundTrip(calories, clock);
  }

  /** A meal logged on the page, stored by the server (which recomputes its
      totals from the single item of quantity 1) and read back by a later
      dashboard update comes back with its calories, protein, carbs and
      fat, under the server's id. */
  lemma MealSurvivesServer(name: string, calories: int, protein: int, carbs: nat, fat: nat,
                           id: ObjectId, owner: ObjectId, created: int, now: int)
    requires Trim(name) != []
    ensures Meals.CastMeal(id, Some(owner), MealPayload(name, calories, protein, carbs, fat), created).Ok?
    ensures var stored := Meals.Saved(Meals.CastMeal(id, Some(owner), MealPayload(name, calories, protein, carbs, fat), created).value);
      NormalizeMeal(MealToJson(stored), now) == LocalMeal(ServerId(NatToString(id)), Trim(name), calories, protein, carbs, fat)
  {
    var body := MealPayload(name, calories, protein, carbs, fat);
    var ib := Meals.MealItemBody(Some(name), Some(calories), Some(protein), Absent);
    assert body.items == Given([ib]);
    Meals.CastOneItem(ib);
    var it := Meals.CastItem(ib).value;
    assert it.calories == Some(calories) && it.protein == Some(protein) && it.quantity == Some(1);
    var m := Meals.CastMeal(id, Some(owner), body, created).value;
    assert m.items == [it];
    Meals.ItemContributions(it, calories, protein, 1);
    Meals.SavedOneItem(m, it);
    MealNoteIsTrimmed(carbs, fat);
    MealNoteCarbsRoundTrip(carbs, fat);
    MealNoteFatRoundTrip(carbs, fat);
    ReadBackOneItemMeal(Meals.Saved(m), it, carbs, fat, now);
  }

  /** A stored meal of one named item whose note holds `carbs` and `fat`
      is read back with its totals, that item's name, and those macros. */
  lemma ReadBackOneItemMeal(stored: Meals.Meal, it: Meals.MealItem, carbs: nat, fat: nat, now: int)
    requires stored.items == [it] && it.name != []
    requires stored.notes == Some(MealNote(carbs, fat))
    requires ParseField(Some(MealNote(carbs, fat)), CarbsKey) == carbs
    requires ParseField(Some(MealNote(carbs, fat)), FatKey) == fat
    ensures NormalizeMeal(MealToJson(stored), now)
      == LocalMeal(ServerId(NatToString(stored.id)), it.name, stored.totalCalories, stored.totalProtein, carbs, fat)
  {
    var json := MealToJson(stored);
    assert FirstItem(json) == ItemJson(Some(it.name), it.calories, it.protein);
  }

  /** Two buffers of equal length whose entries agree on their calories
      burn the same total. */
  lemma {:induction false} BurnedAgrees(a: seq<LocalWorkout>, b: seq<LocalWorkout>)
    requires |a| == |b| && forall i :: 0 <= i < |a| ==> a[i].calories == b[i].calories
    ensures Burned(a) == Burned(b)
  {
    if a != [] {
      BurnedAgrees(a[..|a| - 1], b[..|b| - 1]);
    }
  }

  /** Two meal buffers of equal length whose entries agree on their
      macros have the same sums. */
  lemma MealSumsAgree(a: seq<LocalMeal>, b: seq<LocalMeal>)
    requires |a| == |b|
    requires forall i :: 0 <= i < |a| ==> a[i].calories == b[i].calories && a[i].protein == b[i].protein
    requires forall i :: 0 <= i < |a| ==> a[i].carbs == b[i].carbs && a[i].fat == b[i].fat
    ensures forall k :: MealSum(a, k) == MealSum(b, k)
  {
    forall k ensures MealSum(a, k) == MealSum(b, k) {
      MealSumAgrees(a, b, k);
    }
  }

  lemma {:induction false} MealSumAgrees(a: seq<LocalMeal>, b: seq<LocalMeal>, k: Macro)
    requires |a| == |b| && forall i :: 0 <= i < |a| ==> MacroOf(a[i], k) == MacroOf(b[i], k)
    ensures MealSum(a, k) == MealSum(b, k)
  {
    if a != [] {
      MealSumAgrees(a[..|a| - 1], b[..|b| - 1], k);
    }
  }

  /** Buffers of the same lengths with the same sums give the same
      statistics. */
  lemma StatsAgree(ws: seq<LocalWorkout>, ms: seq<LocalMeal>, ws': seq<LocalWorkout>, ms': seq<LocalMeal>)
    requires |ws| == |ws'| && Burned(ws) == Burned(ws') && |ms| == |ms'|
    requires MealSum(ms, Energy) == MealSum(ms', Energy) && MealSum(ms, Protein) == MealSum(ms', Protein)
    requires MealSum(ms, Carbs) == MealSum(ms', Carbs) && MealSum(ms, Fat) == MealSum(ms', Fat)
    ensures StatsOf(ws, ms) == StatsOf(ws', ms')
  {
  }

  /** What `updateDashboard` computes from the two buffers. */
  function StatsOf(ws: seq<LocalWorkout>, ms: seq<LocalMeal>): Stats
  {
    var consumed := MealSum(ms, Energy);
    var net := consumed - Burned(ws);
    Stats(|ws|, Burned(ws), |ms|, consumed,
          MealSum(ms, Protein), MealSum(ms, Carbs), MealSum(ms, Fat), net,
          MacroBar(MealSum(ms, Protein), 200), MacroBar(MealSum(ms, Carbs), 300),
          MacroBar(MealSum(ms, Fat), 100), NetBar(net))
  }

  /** One workout of 300 calories and one meal of 500 calories with 30 g
      protein, 60 g carbs and 10 g fat give a net of 200 and bars of 15, 20,
      10 and 55 percent. */
  lemma ExampleAggregation()
    ensures var st := StatsOf([LocalWorkout(Stamp(0), "Run", 300, "")], [LocalMeal(Stamp(0), "Lunch", 500, 30, 60, 10)]);
      && st.totalBurned == 300 && st.totalConsumed == 500 && st.netCalories == 200
      && st.proteinBar == 15.0 && st.carbsBar == 20.0 && st.fatBar == 10.0 && st.netBar == 55.0
  {
    var ws := [LocalWorkout(Stamp(0), "Run", 300, "")];
    var ms := [LocalMeal(Stamp(0), "Lunch", 500, 30, 60, 10)];
    assert ws[..0] == [] && ms[..0] == [];
  }

  /** Logging one more entry adds exactly its values to the totals. */
  lemma AppendAddsToTotals(ws: seq<LocalWorkout>, w: LocalWorkout, ms: seq<LocalMeal>, m: LocalMeal)
    ensures Burned(ws + [w]) == Burned(ws) + w.calories
    ensures forall k :: MealSum(ms + [m], k) == MealSum(ms, k) + MacroOf(m, k)
  {
    assert (ws + [w])[..|ws|] == ws;
    assert (ms + [m])[..|ms|] == ms;
  }

  /** The `forEach` loops of `updateDashboard`: one over the workouts, one
      over the meals carrying four sums, then the net and the bars. */
  method ComputeStats(ws: seq<LocalWorkout>, ms: seq<LocalMeal>) returns (st: Stats)
    ensures st == StatsOf(ws, ms)
  {
    var burned := 0;
    var i := 0;
    while i < |ws|
      invariant 0 <= i <= |ws|
      invariant burned == Burned(ws[..i])
    {
      assert ws[..i + 1][..i] == ws[..i];
      burned := burned + ws[i].calories;
      i := i + 1;
    }
    assert ws[..|ws|] == ws;

    var consumed, protein, carbs, fat := 0, 0, 0, 0;
    var j := 0;
    while j < |ms|
      invariant 0 <= j <= |ms|
      invariant consumed == MealSum(ms[..j], Energy) && protein == MealSum(ms[..j], Protein)
      invariant carbs == MealSum(ms[..j], Carbs) && fat == MealSum(ms[..j], Fat)
    {
      assert ms[..j + 1][..j] == ms[..j];
      consumed := consumed + ms[j].calories;
      protein := protein + ms[j].protein;
      carbs := carbs + ms[j].carbs;
      fat := fat + ms[j].fat;
      j := j + 1;
    }
    assert ms[..|ms|] == ms;

    var net := consumed - burned;
    var netPercent := 50.0;
    if net > 0 {
      netPercent := MinReal(50.0 + (net as real / 2000.0 * 50.0), 100.0);
    } else {
      netPercent := MaxReal(50.0 + (net as real / 2000.0 * 50.0), 0.0);
    }
    st := Stats(|ws|, burned, |ms|, consumed, protein, carbs, fat, net,
                MacroBar(protein, 200), MacroBar(carbs, 300), MacroBar(fat, 100), netPercent);
  }

  /** The page's two buffers. */
  class LegacyPage {
    var workouts: seq<LocalWorkout>
    var meals: seq<LocalMeal>

    constructor ()
      ensures workouts == [] && meals == []
    {
      workouts, meals := [], [];
    }

    /** The workout form's submit handler: the entry is appended to the
        buffer whatever happens next; a request is sent only when a token
        is stored. */
    method SubmitWorkout(name: string, calories: int, now: int, clock: string, token: Option<string>)
      returns (request: Option<Post<Workouts.WorkoutBody>>)
      modifies this
      ensures workouts == old(workouts) + [LocalWorkout(Stamp(now), name, calories, clock)]
      ensures meals == old(meals)
      ensures TruthyString(token) ==>
        request == Some(Post("/api/workouts", "Bearer " + token.value, WorkoutPayload(name, calories, clock)))
      ensures !TruthyString(token) ==> request == None
    {
      var entry := LocalWorkout(Stamp(now), name, calories, clock);
      workouts := workouts + [entry];
      if TruthyString(token) {
        request := Some(Post("/api/workouts", "Bearer " + token.value, WorkoutPayload(entry.name, entry.calories, entry.date)));
      } else {
        request := None;
      }
    }

    /** The meal form's submit handler. */
    method SubmitMeal(name: string, calories: int, protein: int, carbs: int, fat: int, now: int, token: Option<string>)
      returns (request: Option<Post<Meals.MealBody>>)
      modifies this
      ensures meals == old(meals) + [LocalMeal(Stamp(now), name, calories, protein, carbs, fat)]
      ensures workouts == old(workouts)
      ensures TruthyString(token) ==>
        request == Some(Post("/api/meals", "Bearer " + token.value, MealPayload(name, calories, protein, carbs, fat)))
      ensures !TruthyString(token) ==> request == None
    {
      var entry := LocalMeal(Stamp(now), name, calories, protein, carbs, fat);
      meals := meals + [entry];
      if TruthyString(token) {
        request := Some(Post("/api/meals", "Bearer " + token.value,
                             MealPayload(entry.name, entry.calories, entry.protein, entry.carbs, entry.fat)));
      } else {
        request := None;
      }
    }

    /** `updateDashboard`. Without a token, or when a fetch throws, both
        buffers stay. Otherwise a list whose response is ok and readable
        replaces its buffer; the workouts are read first, so an unreadable
        workout list also leaves the meals as they were. The statistics are
        then computed over the buffers. */
    method UpdateDashboard(token: Option<string>, outcome: SyncOutcome, now: int, clock: string)
      returns (st: Stats)
      modifies this
      ensures !TruthyString(token) || outcome.FetchThrew? ==> workouts == old(workouts) && meals == old(meals)
      ensures TruthyString(token) && outcome.Replies? ==> (
        && workouts == (if outcome.workoutReply.Delivered?
                        then NormalizeWorkouts(outcome.workoutReply.records, now, clock) else old(workouts))
        && meals == (if !outcome.workoutReply.Unreadable? && outcome.mealReply.Delivered?
                     then NormalizeMeals(outcome.mealReply.records, now) else old(meals)))
      ensures st == StatsOf(workouts, meals)
    {
      if TruthyString(token) && outcome.Replies? {
        match outcome.workoutReply {
          case Delivered(records) =>
            workouts := NormalizeWorkouts(records, now, clock);
          case NotOk =>
          case Unreadable =>
        }
        if !outcome.workoutReply.Unreadable? {
          match outcome.mealReply {
            case Delivered(records) =>
              meals := NormalizeMeals(records, now);
            case NotOk =>
            case Unreadable =>
          }
        }
      }
      st := ComputeStats(workouts, meals);
    }
  }
}

=== FILE: legacy_notes.dfy ===
/** The free-text notes through which the legacy page of client/public/main.js
    stores the numbers the server schemas have no field for: the writers
    that put "Calories burned: c at t" and "Carbs: cg, Fat: fg" into `notes`,
    and the case-insensitive patterns `Key:\s*(\d+)` that read them back. */
module LegacyNotes {
  import opened Common

  /** What `\s` matches in a JavaScript regular expression: the WhiteSpace
      and LineTerminator characters of ECMAScript. */
  predicate IsRegexSpace(c: char)
  {
    || c == '\t' || c == '\n' || c == '\U{B}' || c == '\U{C}' || c == '\r' || c == ' '
    || c == '\U{A0}' || c == '\U{1680}' || ('\U{2000}' <= c <= '\U{200A}')
    || c == '\U{2028}' || c == '\U{2029}' || c == '\U{202F}' || c == '\U{205F}'
    || c == '\U{3000}' || c == '\U{FEFF}'
  }

  /** What `\d` matches. */
  predicate IsDigit(c: char)
  {
    '0' <= c <= '9'
  }

  predicate AllDigits(s: string)
  {
    forall i :: 0 <= i < |s| ==> IsDigit(s[i])
  }

  /** `parseInt` of a run of decimal digits. */
  function DigitsValue(s: string): nat
    requires AllDigits(s)
  {
    if s == [] then 0
    else DigitsValue(s[..|s| - 1]) * 10 + (s[|s| - 1] as int - '0' as int)
  }

  /** The character of one decimal digit. */
  function DigitChar(d: nat): (c: char)
    requires d < 10
    ensures IsDigit(c) && c as int - '0' as int == d
  {
    (d + '0' as int) as char
  }

  /** The decimal text of a non-negative number, as a template literal
      writes it: at least one digit, and nothing else. */
  function NatToString(n: nat): (r: string)
    ensures r != [] && AllDigits(r)
  {
    if n < 10 then [DigitChar(n)] else NatToString(n / 10) + [DigitChar(n % 10)]
  }

  /** Reading back the digits written for `n` gives `n`. */
  lemma {:induction false} NatToStringRoundTrip(n: nat)
    ensures DigitsValue(NatToString(n)) == n
  {
    if n >= 10 {
      NatToStringRoundTrip(n / 10);
      var r := NatToString(n);
      assert r[..|r| - 1] == NatToString(n / 10);
    }
  }

  /** `${i}` for an integer: a minus sign before the digits of a negative one. */
  function IntToString(i: int): (r: string)
    ensures i >= 0 ==> r == NatToString(i)
    ensures i < 0 ==> r != [] && r[0] == '-' && r[1..] == NatToString(-i)
  {
    if i < 0 then "-" + NatToString(-i) else NatToString(i)
  }

  /** The keys of the three patterns, in lower case; `/i` compares letters
      regardless of case. */
  const CaloriesKey: string := "calories burned:"
  const CarbsKey: string := "carbs:"
  const FatKey: string := "fat:"

  /** The key occurs at `p`, letters compared case-insensitively. */
  predicate KeyAt(s: string, p: nat, key: string)
  {
    p + |key| <= |s| && forall k :: 0 <= k < |key| ==> LowerChar(s[p + k]) == key[k]
  }

  /** Where the greedy `\s*` that starts at `p` stops. */
  function SpacesEnd(s: string, p: nat): (q: nat)
    requires p <= |s|
    ensures p <= q <= |s|
    ensures forall k :: p <= k < q ==> IsRegexSpace(s[k])
    ensures q == |s| || !IsRegexSpace(s[q])
    decreases |s| - p
  {
    if p < |s| && IsRegexSpace(s[p]) then SpacesEnd(s, p + 1) else p
  }

  /** Where the greedy `\d+` that starts at `p` stops. */
  function DigitsEnd(s: string, p: nat): (q: nat)
    requires p <= |s|
    ensures p <= q <= |s|
    ensures forall k :: p <= k < q ==> IsDigit(s[k])
    ensures q == |s| || !IsDigit(s[q])
    decreases |s| - p
  {
    if p < |s| && IsDigit(s[p]) then DigitsEnd(s, p + 1) else p
  }

  /** The pattern `key\s*(\d+)` matches at `p`: the key, then whitespace,
      then at least one digit. */
  predicate MatchAt(s: string, p: nat, key: string)
  {
    KeyAt(s, p, key) && var q := SpacesEnd(s, p + |key|); q < |s| && IsDigit(s[q])
  }

  /** The captured group `(\d+)` of a match at `p`. */
  function Capture(s: string, p: nat, key: string): (r: string)
    requires MatchAt(s, p, key)
    ensures r != [] && AllDigits(r)
  {
    var q := SpacesEnd(s, p + |key|);
    s[q..DigitsEnd(s, q)]
  }

  /** The leftmost position, from `from` on, where the pattern matches. */
  function FirstMatch(s: string, key: string, from: nat): (r: Option<nat>)
    requires from <= |s|
    ensures r.Some? ==> (
      && from <= r.value <= |s| && MatchAt(s, r.value, key)
      && forall p :: from <= p < r.value ==> !MatchAt(s, p, key))
    ensures r.None? ==> forall p :: from <= p <= |s| ==> !MatchAt(s, p, key)
    decreases |s| - from
  {
    if MatchAt(s, from, key) then Some(from)
    else if from == |s| then None
    else FirstMatch(s, key, from + 1)
  }

  /** `(notes || "").match(/key\s*(\d+)/i)`, then `parseInt` of the group,
      or 0 without a match. The value is read at the leftmost match. */
  function ParseField(notes: Option<string>, key: string): (r: nat)
    ensures var s := if notes.Some? then notes.value else "";
      && ((forall p :: 0 <= p <= |s| ==> !MatchAt(s, p, key)) ==> r == 0)
      && (forall p :: 0 <= p <= |s| && MatchAt(s, p, key) && (forall p' :: 0 <= p' < p ==> !MatchAt(s, p', key))
            ==> r == DigitsValue(Capture(s, p, key)))
  {
    var s := if notes.Some? then notes.value else "";
    match FirstMatch(s, key, 0)
    case None => 0
    case Some(p) =>
      assert forall p' :: 0 <= p' <= |s| && MatchAt(s, p', key) && (forall p'' :: 0 <= p'' < p' ==> !MatchAt(s, p'', key)) ==> p' == p;
      DigitsValue(Capture(s, p, key))
  }

  /** A note with no key followed by digits, or no note at all, reads as 0. */
  lemma MissingNotesReadZero(key: string)
    requires key != []
    ensures ParseField(None, key) == 0 && ParseField(Some(""), key) == 0
  {
  }

  /** Where the key is followed by whitespace and a maximal run of digits,
      and the pattern matches nowhere before, the field reads as those
      digits. */
  lemma ParseFieldAt(s: string, key: string, p: nat, q: nat, e: nat)
    requires KeyAt(s, p, key)
    requires forall p' :: 0 <= p' < p ==> !MatchAt(s, p', key)
    requires p + |key| <= q < e <= |s|
    requires forall k :: p + |key| <= k < q ==> IsRegexSpace(s[k])
    requires forall k :: q <= k < e ==> IsDigit(s[k])
    requires e == |s| || !IsDigit(s[e])
    ensures AllDigits(s[q..e]) && ParseField(Some(s), key) == DigitsValue(s[q..e])
  {
    SpacesEndAt(s, p + |key|, q);
    DigitsEndAt(s, q, e);
    assert MatchAt(s, p, key);
    assert FirstMatch(s, key, 0) == Some(p);
    assert Capture(s, p, key) == s[q..e];
  }

  /** A whitespace run that ends at `q` is where `\s*` stops. */
  lemma {:induction false} SpacesEndAt(s: string, p: nat, q: nat)
    requires p <= q <= |s|
    requires forall k :: p <= k < q ==> IsRegexSpace(s[k])
    requires q == |s| || !IsRegexSpace(s[q])
    ensures SpacesEnd(s, p) == q
    decreases q - p
  {
    if p < q {
      SpacesEndAt(s, p + 1, q);
    }
  }

  /** A digit run that ends at `e` is where `\d+` stops. */
  lemma {:induction false} DigitsEndAt(s: string, q: nat, e: nat)
    requires q <= e <= |s|
    requires forall k :: q <= k < e ==> IsDigit(s[k])
    requires e == |s| || !IsDigit(s[e])
    ensures DigitsEnd(s, q) == e
    decreases e - q
  {
    if q < e {
      DigitsEndAt(s, q + 1, e);
    }
  }

  /** The note the workout form sends (main.js:85). */
  function WorkoutNote(calories: int, clock: string): string
  {
    "Calories burned: " + IntToString(calories) + " at " + clock
  }

  /** The note the meal form sends (main.js:154). */
  function MealNote(carbs: int, fat: int): string
  {
    "Carbs: " + IntToString(carbs) + "g, Fat: " + IntToString(fat) + "g"
  }

  /** A note made of some text `before` in which the key cannot start, the
      key and whitespace (`head`), a run of digits, and something that does
      not start with a digit, reads as the value of those digits. */
  lemma ParseAfter(before: string, head: string, key: string, digits: string, rest: string)
    requires KeyAt(head, 0, key)
    requires forall k :: |key| <= k < |head| ==> IsRegexSpace(head[k])
    requires key != [] && forall k :: 0 <= k < |before| ==> LowerChar(before[k]) != key[0]
    requires digits != [] && AllDigits(digits)
    requires rest == [] || !IsDigit(rest[0])
    ensures ParseField(Some(before + head + digits + rest), key) == DigitsValue(digits)
  {
    var s := before + head + digits + rest;
    var p := |before|;
    var q := p + |head|;
    var e := q + |digits|;
    assert forall k :: 0 <= k < |head| ==> s[p + k] == head[k];
    assert KeyAt(s, p, key);
    forall p' | 0 <= p' < p ensures !MatchAt(s, p', key) {
      assert s[p'] == before[p'];
    }
    assert s[q..e] == digits;
    assert e < |s| ==> s[e] == rest[0];
    ParseFieldAt(s, key, p, q, e);
  }

  /** The key of the calorie pattern matches the start of the workout note. */
  lemma CaloriesHead()
    ensures KeyAt("Calories burned: ", 0, CaloriesKey)
  {
  }

  lemma CarbsHead()
    ensures KeyAt("Carbs: ", 0, CarbsKey)
  {
  }

  lemma FatHead()
    ensures KeyAt("Fat: ", 0, FatKey)
  {
  }

  /** Writing a non-negative calorie count into a workout note and reading
      it back gives the count, whatever the time of day. */
  lemma WorkoutNoteRoundTrip(calories: nat, clock: string)
    ensures ParseField(Some(WorkoutNote(calories, clock)), CaloriesKey) == calories
  {
    var d := NatToString(calories);
    CaloriesHead();
    NatToStringRoundTrip(calories);
    assert WorkoutNote(calories, clock) == [] + "Calories burned: " + d + (" at " + clock);
    ParseAfter([], "Calories burned: ", CaloriesKey, d, " at " + clock);
  }

  /** Trimming a string whose first character and `n`-th character are not
      whitespace keeps at least its first `n` characters. */
  lemma TrimKeepsPrefix(s: string, n: nat)
    requires 0 < n <= |s| && !IsSpace(s[0]) && !IsSpace(s[n - 1])
    ensures |Trim(s)| >= n && Trim(s) == s[..|Trim(s)|]
  {
    TrimIsCore(s);
    var a, b :| 0 <= a <= b <= |s| && Trim(s) == s[a..b] && AllSpace(s, 0, a) && AllSpace(s, b, |s|);
    assert a == 0;
    assert b >= n;
  }

  /** Trimming `x + y`, where `x` starts with a non-space and some character
      of `y` is not whitespace, keeps `x` and a non-empty front part of `y`. */
  lemma TrimKeepsHead(x: string, y: string, n: nat)
    requires x != [] && !IsSpace(x[0]) && n < |y| && !IsSpace(y[n])
    ensures var t := Trim(x + y); |t| > |x| + n && t == x + y[..|t| - |x|]
  {
    var s := x + y;
    assert s[0] == x[0] && s[|x| + n] == y[n];
    TrimKeepsPrefix(s, |x| + n + 1);
    var t := Trim(s);
    assert s[..|t|] == x + y[..|t| - |x|];
  }

  /** The server trims the note (workout.js:23-26); the calorie count still
      reads back, because trimming only cuts whitespace after " at". */
  lemma TrimmedWorkoutNoteRoundTrip(calories: nat, clock: string)
    ensures ParseField(Some(Trim(WorkoutNote(calories, clock))), CaloriesKey) == calories
  {
    var head := "Calories burned: ";
    var d := NatToString(calories);
    var y := " at " + clock;
    assert WorkoutNote(calories, clock) == (head + d) + y;
    TrimKeepsHead(head + d, y, 2);
    var t := Trim((head + d) + y);
    var rest := y[..|t| - |head + d|];
    assert rest[0] == y[0] == ' ';
    CaloriesHead();
    NatToStringRoundTrip(calories);
    assert [] + head == head;
    assert t == (head + d) + rest;
    ParseAfter([], head, CaloriesKey, d, rest);
  }

  /** Writing a non-negative carbs count into a meal note and reading it
      back gives the count. */
  lemma MealNoteCarbsRoundTrip(carbs: nat, fat: int)
    ensures ParseField(Some(MealNote(carbs, fat)), CarbsKey) == carbs
  {
    var dc := NatToString(carbs);
    NatToStringRoundTrip(carbs);
    CarbsHead();
    assert MealNote(carbs, fat) == [] + "Carbs: " + dc + ("g, Fat: " + IntToString(fat) + "g");
    ParseAfter([], "Carbs: ", CarbsKey, dc, "g, Fat: " + IntToString(fat) + "g");
  }

  /** No 'f' of either case occurs in the part of the meal note before "Fat". */
  lemma NoFBeforeFat(dc: string)
    requires forall i :: 0 <= i < |dc| ==> dc[i] == '-' || IsDigit(dc[i])
    ensures var before := "Carbs: " + dc + "g, ";
      forall k :: 0 <= k < |before| ==> LowerChar(before[k]) != 'f'
  {
    var before := "Carbs: " + dc + "g, ";
    forall k | 0 <= k < |before| ensures LowerChar(before[k]) != 'f' {
      if k < 7 {
        assert before[k] == "Carbs: "[k];
      } else if k < 7 + |dc| {
        assert before[k] == dc[k - 7];
      } else {
        assert before[k] == "g, "[k - 7 - |dc|];
      }
    }
  }

  /** Writing any carbs count and a non-negative fat count into a meal note
      and reading the fat back gives the fat count: the carbs part, a minus
      sign included, holds no place where the fat pattern could start. */
  lemma MealNoteFatRoundTrip(carbs: int, fat: nat)
    ensures ParseField(Some(MealNote(carbs, fat)), FatKey) == fat
  {
    var dc := IntToString(carbs);
    forall i | 0 <= i < |dc| ensures dc[i] == '-' || IsDigit(dc[i]) {
      if carbs < 0 && i > 0 {
        assert dc[i] == dc[1..][i - 1];
      }
    }
    var df := NatToString(fat);
    NatToStringRoundTrip(fat);
    FatHead();
    var before := "Carbs: " + dc + "g, ";
    NoFBeforeFat(dc);
    assert MealNote(carbs, fat) == before + "Fat: " + df + "g";
    ParseAfter(before, "Fat: ", FatKey, df, "g");
  }

  /** The meal note neither starts nor ends with whitespace, so the server
      stores it as written. */
  lemma MealNoteIsTrimmed(carbs: int, fat: int)
    ensures Trim(MealNote(carbs, fat)) == MealNote(carbs, fat)
  {
    var s := MealNote(carbs, fat);
    assert s[0] == 'C' && s[|s| - 1] == 'g';
    assert TrimStart(s) == s;
    assert TrimEnd(s) == s;
  }
}

=== FILE: meal_model.dfy ===
/** The meal document of server/models/meal.js: its items, the Mongoose
    casting of a request body into a document (defaults, trimming,
    required paths), and the pre-save hook that recomputes the two
    derived totals in place. */
module Meals {
  import opened Common

  /** A meal item as stored: the name is required and trimmed, calories and
      protein are optional numbers, and the quantity is a number or null
      (`None`). */
  datatype MealItem = MealItem(name: string, calories: Option<int>, protein: Option<int>, quantity: Option<int>)

  /** A meal item as it arrives in a request body, before casting. The
      quantity has a default of 1, which an explicit null does not get. */
  datatype MealItemBody = MealItemBody(name: Option<string>, calories: Option<int>, protein: Option<int>, quantity: Field<int>)

  /** A stored meal document. */
  datatype Meal = Meal(
    id: ObjectId,
    userId: ObjectId,
    items: seq<MealItem>,
    totalCalories: int,
    totalProtein: int,
    date: Option<int>,
    notes: Option<string>)

  /** The keys of a request body that the meal route spreads into a new
      document. `items` and `date` have schema defaults, so for them an
      absent key and a null one differ. `bodyWeight` is not a path of the
      meal schema, so Mongoose's strict mode drops it. */
  datatype MealBody = MealBody(
    userId: Option<ObjectId>,
    items: Field<seq<MealItemBody>>,
    totalCalories: Option<int>,
    totalProtein: Option<int>,
    date: Field<int>,
    notes: Option<string>,
    bodyWeight: Option<real>)

  /** Why saving a new meal fails: a validation failure naming the path
      that is missing, or a null item list, on which the pre-save hook's
      `reduce` throws. */
  datatype SaveError = Required(path: string) | ItemsNull

  /** The two nutrients whose totals the pre-save hook keeps. */
  datatype Nutrient = Calories | Protein

  /** `(item.calories || 0)` and `(item.protein || 0)`: a missing value counts as 0. */
  function Amount(item: MealItem, n: Nutrient): int
  {
    var v := if n == Calories then item.calories else item.protein;
    match v
    case Some(x) => x
    case None => 0
  }

  /** What one item adds to a total: its amount times its quantity, where
      a null quantity multiplies as 0. */
  function Contribution(item: MealItem, n: Nutrient): int
  {
    Amount(item, n) * (match item.quantity case Some(q) => q case None => 0)
  }

  /** `items.reduce((sum, item) => sum + (item.x || 0) * item.quantity, 0)`:
      a left fold, so the last item is added last. */
  function Total(items: seq<MealItem>, n: Nutrient): int
  {
    if items == [] then 0
    else Total(items[..|items| - 1], n) + Contribution(items[|items| - 1], n)
  }

  /** The stored `totalCalories` and `totalProtein` of a meal. */
  function TotalCalories(items: seq<MealItem>): int { Total(items, Calories) }
  function TotalProtein(items: seq<MealItem>): int { Total(items, Protein) }

  /** A single item totals its own contribution. */
  lemma TotalOfOne(it: MealItem, n: Nutrient)
    ensures Total([it], n) == Contribution(it, n)
  {
    assert [it][..0] == [];
  }

  /** The contributions of an item whose calories, protein and quantity
      are all numbers. */
  lemma ItemContributions(it: MealItem, c: int, p: int, q: int)
    requires it.calories == Some(c) && it.protein == Some(p) && it.quantity == Some(q)
    ensures Contribution(it, Calories) == c * q && Contribution(it, Protein) == p * q
  {
  }

  /** A meal of a single item is saved with that item's contributions as
      its totals. */
  lemma SavedOneItem(m: Meal, it: MealItem)
    requires m.items == [it]
    ensures Saved(m).totalCalories == Contribution(it, Calories)
    ensures Saved(m).totalProtein == Contribution(it, Protein)
  {
    TotalOfOne(it, Calories);
    TotalOfOne(it, Protein);
  }

  /** The fold distributes over concatenation of item lists. */
  lemma {:induction false} TotalAppend(a: seq<MealItem>, b: seq<MealItem>, n: Nutrient)
    ensures Total(a + b, n) == Total(a, n) + Total(b, n)
    decreases |b|
  {
    if b == [] {
      assert a + b == a;
    } else {
      var b' := b[..|b| - 1];
      assert (a + b)[..|a + b| - 1] == a + b';
      TotalAppend(a, b', n);
    }
  }

  /** The fold agrees with the sum taken from the front: the first item's
      contribution plus the total of the rest. An empty meal totals 0. */
  lemma TotalFromFront(items: seq<MealItem>, n: Nutrient)
    ensures items == [] ==> Total(items, n) == 0
    ensures items != [] ==> Total(items, n) == Contribution(items[0], n) + Total(items[1..], n)
  {
    if items != [] {
      assert items == [items[0]] + items[1..];
      TotalAppend([items[0]], items[1..], n);
      assert [items[0]][..0] == [];
    }
  }

  /** When every item has a non-negative amount and quantity, so has the total. */
  lemma {:induction false} TotalNonNegative(items: seq<MealItem>, n: Nutrient)
    requires forall i :: 0 <= i < |items| ==> Amount(items[i], n) >= 0 && (items[i].quantity.Some? ==> items[i].quantity.value >= 0)
    ensures Total(items, n) >= 0
  {
    if items != [] {
      TotalNonNegative(items[..|items| - 1], n);
    }
  }

  /** Casting one item body: the name is trimmed and must not be empty
      afterwards (a null name is missing); an absent quantity becomes 1, a
      null one stays null. */
  function CastItem(b: MealItemBody): (r: Result<MealItem, SaveError>)
    ensures r.Ok? <==> b.name.Some? && Trim(b.name.value) != []
    ensures r.Err? ==> r.error == Required("items.name")
    ensures r.Ok? ==> (
      && r.value.name == Trim(b.name.value)
      && r.value.calories == b.calories && r.value.protein == b.protein
      && (b.quantity.Absent? ==> r.value.quantity == Some(1))
      && (b.quantity.Null? ==> r.value.quantity.None?)
      && (b.quantity.Given? ==> r.value.quantity == Some(b.quantity.value)))
  {
    if b.name.None? || Trim(b.name.value) == [] then Err(Required("items.name"))
    else Ok(MealItem(Trim(b.name.value), b.calories, b.protein, WithDefault(b.quantity, 1)))
  }

  /** Casting the item array: every item must cast, and the order is kept. */
  function CastItems(bs: seq<MealItemBody>): (r: Result<seq<MealItem>, SaveError>)
    ensures r.Ok? <==> forall i :: 0 <= i < |bs| ==> CastItem(bs[i]).Ok?
    ensures r.Ok? ==> |r.value| == |bs| && forall i :: 0 <= i < |bs| ==> CastItem(bs[i]) == Ok(r.value[i])
  {
    if bs == [] then Ok([])
    else
      var head := CastItem(bs[0]);
      var tail := CastItems(bs[1..]);
      if head.Err? then Err(head.error)
      else if tail.Err? then
        var j :| 0 <= j < |bs[1..]| && CastItem(bs[1..][j]).Err?;
        assert bs[j + 1] == bs[1..][j];
        Err(tail.error)
      else
        CastCons(bs, head.value, tail.value);
        Ok([head.value] + tail.value)
  }

  /** The item-wise agreement of a cast array extends from its tail to the
      whole array when its first item casts too. */
  lemma CastCons(bs: seq<MealItemBody>, head: MealItem, tail: seq<MealItem>)
    requires bs != [] && CastItem(bs[0]) == Ok(head)
    requires |tail| == |bs| - 1 && forall i :: 0 <= i < |tail| ==> CastItem(bs[1..][i]) == Ok(tail[i])
    ensures forall i :: 0 <= i < |bs| ==> CastItem(bs[i]) == Ok(([head] + tail)[i])
  {
    forall i | 0 <= i < |bs| ensures CastItem(bs[i]) == Ok(([head] + tail)[i]) {
      if i > 0 {
        assert bs[i] == bs[1..][i - 1] && ([head] + tail)[i] == tail[i - 1];
      }
    }
  }

  /** A one-item array casts to the one cast item. */
  lemma CastOneItem(b: MealItemBody)
    requires CastItem(b).Ok?
    ensures CastItems([b]) == Ok([CastItem(b).value])
  {
    assert [b][1..] == [];
    assert CastItems([]) == Ok([]);
    assert [CastItem(b).value] + [] == [CastItem(b).value];
  }

  /** `new Meal({ ...body, userId })` followed by validation, up to the
      point where the pre-save hook may run: the owner is required; an
      absent `items` defaults to [], a null one passes validation but makes
      the hook's `reduce` throw; the totals default to 0 (the body may carry
      its own); an absent date defaults to the creation time `now`, a null
      one is stored null; the notes are trimmed. */
  function CastMeal(id: ObjectId, owner: Option<ObjectId>, body: MealBody, now: int): (r: Result<Meal, SaveError>)
    ensures r.Ok? <==> owner.Some? && !body.items.Null? && (body.items.Given? ==> CastItems(body.items.value).Ok?)
    ensures owner.None? ==> r == Err(Required("userId"))
    ensures owner.Some? && body.items.Null? ==> r == Err(ItemsNull)
    ensures r.Ok? ==> (
      && r.value.id == id && r.value.userId == owner.value
      && r.value.items == (if body.items.Given? then CastItems(body.items.value).value else [])
      && (body.date.Absent? ==> r.value.date == Some(now))
      && (body.date.Null? ==> r.value.date.None?)
      && (body.date.Given? ==> r.value.date == Some(body.date.value))
      && r.value.notes == (if body.notes.Some? then Some(Trim(body.notes.value)) else None))
  {
    if owner.None? then Err(Required("userId"))
    else
      var items := match body.items case Absent => Ok([]) case Null => Err(ItemsNull) case Given(bs) => CastItems(bs);
      if items.Err? then Err(items.error)
      else
        var totalCalories := if body.totalCalories.Some? then body.totalCalories.value else 0;
        var totalProtein := if body.totalProtein.Some? then body.totalProtein.value else 0;
        var notes := if body.notes.Some? then Some(Trim(body.notes.value)) else None;
        Ok(Meal(id, owner.value, items.value, totalCalories, totalProtein, WithDefault(body.date, now), notes))
  }

  /** The spread puts the caller's id last, so a `userId` in the body has no
      effect on the document. */
  lemma CastMealIgnoresBodyOwner(id: ObjectId, caller: ObjectId, body: MealBody, claimed: Option<ObjectId>, now: int)
    ensures CastMeal(id, Some(caller), body.(userId := claimed), now) == CastMeal(id, Some(caller), body, now)
    ensures CastMeal(id, Some(caller), body, now).Ok? ==> CastMeal(id, Some(caller), body, now).value.userId == caller
  {
    var body' := body.(userId := claimed);
    assert body'.items == body.items && body'.totalCalories == body.totalCalories;
    assert body'.totalProtein == body.totalProtein && body'.date == body.date && body'.notes == body.notes;
  }

  /** The invariant the pre-save hook establishes: the stored totals agree
      with the item list. */
  predicate Consistent(m: Meal)
  {
    m.totalCalories == TotalCalories(m.items) && m.totalProtein == TotalProtein(m.items)
  }

  /** The document as the pre-save hook leaves it: both totals recomputed,
      every other field as it was. */
  function Saved(m: Meal): (r: Meal)
    ensures Consistent(r)
    ensures r.id == m.id && r.userId == m.userId && r.items == m.items
      && r.date == m.date && r.notes == m.notes
  {
    m.(totalCalories := TotalCalories(m.items), totalProtein := TotalProtein(m.items))
  }

  /** Client-supplied totals make no difference: two documents that differ
      only in their totals are saved alike. */
  lemma SavedIgnoresClientTotals(m: Meal, calories: int, protein: int)
    ensures Saved(m.(totalCalories := calories, totalProtein := protein)) == Saved(m)
  {
  }

  /** An item sent without a quantity contributes exactly its calories and
      protein (or 0 when they are missing). */
  lemma DefaultQuantityContributes(name: string, calories: Option<int>, protein: Option<int>)
    requires Trim(name) != []
    ensures CastItem(MealItemBody(Some(name), calories, protein, Absent)).Ok?
    ensures var it := CastItem(MealItemBody(Some(name), calories, protein, Absent)).value;
      it.quantity == Some(1) && Total([it], Calories) == Amount(it, Calories) && Total([it], Protein) == Amount(it, Protein)
  {
    var it := CastItem(MealItemBody(Some(name), calories, protein, Absent)).value;
    assert [it][..0] == [];
  }

  /** An item sent with `quantity: null` skips the default, keeps the null,
      and adds nothing to either total, whatever its calories and protein. */
  lemma NullQuantityContributesNothing(name: string, calories: Option<int>, protein: Option<int>)
    requires Trim(name) != []
    ensures CastItem(MealItemBody(Some(name), calories, protein, Null)).Ok?
    ensures var it := CastItem(MealItemBody(Some(name), calories, protein, Null)).value;
      it.quantity.None? && Total([it], Calories) == 0 && Total([it], Protein) == 0
  {
    var it := CastItem(MealItemBody(Some(name), calories, protein, Null)).value;
    assert [it][..0] == [];
  }

  /** A mutable meal document. Only the pre-save hook changes it here. */
  class MealDocument {
    var id: ObjectId
    var userId: ObjectId
    var items: seq<MealItem>
    var totalCalories: int
    var totalProtein: int
    var date: Option<int>
    var notes: Option<string>

    /** The document's current field values. */
    function Value(): Meal
      reads this
    {
      Meal(id, userId, items, totalCalories, totalProtein, date, notes)
    }

    constructor (m: Meal)
      ensures Value() == m
    {
      id, userId, items := m.id, m.userId, m.items;
      totalCalories, totalProtein := m.totalCalories, m.totalProtein;
      date, notes := m.date, m.notes;
    }

    /** `mealSchema.pre('save', ...)`: overwrites the two totals with the
        folds over the items and touches nothing else. */
    method PreSave()
      modifies this
      ensures Value() == Saved(old(Value()))
      ensures Consistent(Value())
    {
      totalCalories := TotalCalories(items);
      totalProtein := TotalProtein(items);
    }
  }
}

=== FILE: meal_routes.dfy ===
/** The meal routes of server/routes/mealRoutes.js as operations on an
    ownership-scoped meal collection. Each handler runs behind the `auth`
    middleware: it first calls `Authenticate` and proceeds only as the user
    it yields. Ids come from a counter, standing for ObjectId generation. */
module MealRoutes {
  import opened Common
  import opened Meals
  import opened Auth

  /** The JSON bodies the handlers send. */
  datatype Body = Failure(error: string) | Message(message: string) | MealList(meals: seq<Meal>) | Created(meal: Meal)

  datatype Response = Response(status: int, body: Body)

  /** `{ userId: caller }` as a query filter. */
  function OwnedBy(ms: seq<Meal>, caller: ObjectId): (r: seq<Meal>)
    ensures forall m :: m in r <==> m in ms && m.userId == caller
  {
    Filter(ms, (m: Meal) => m.userId == caller)
  }

  /** The order of `date: -1`: MongoDB sorts null below every date, so a
      null date is older than any date and as old as another null. */
  predicate NotOlder(a: Option<int>, b: Option<int>)
  {
    b.None? || (a.Some? && a.value >= b.value)
  }

  /** `.sort({ date: -1 })`: newest first, null-dated meals last. */
  predicate SortedByDateDesc(ms: seq<Meal>)
  {
    forall i, j :: 0 <= i < j < |ms| ==> NotOlder(ms[i].date, ms[j].date)
  }

  /** Puts `m` in front of the first meal that is not newer than it. */
  function InsertByDate(m: Meal, s: seq<Meal>): (r: seq<Meal>)
    requires SortedByDateDesc(s)
    ensures SortedByDateDesc(r)
    ensures multiset(r) == multiset(s) + multiset{m}
  {
    if s == [] || NotOlder(m.date, s[0].date) then [m] + s
    else
      var rest := InsertByDate(m, s[1..]);
      assert s == [s[0]] + s[1..];
      assert forall k :: 0 <= k < |rest| ==> NotOlder(s[0].date, rest[k].date) by {
        forall k | 0 <= k < |rest| ensures NotOlder(s[0].date, rest[k].date) {
          NotNewerThanHead(m, s, rest, k);
        }
      }
      [s[0]] + rest
  }

  /** Every meal in the insertion into the tail of `s`, when `m` is older
      than `s`'s head, is no newer than that head. */
  lemma NotNewerThanHead(m: Meal, s: seq<Meal>, rest: seq<Meal>, k: nat)
    requires s != [] && SortedByDateDesc(s) && !NotOlder(m.date, s[0].date)
    requires multiset(rest) == multiset(s[1..]) + multiset{m}
    requires k < |rest|
    ensures NotOlder(s[0].date, rest[k].date)
  {
    assert rest[k] in multiset(rest);
    if rest[k] != m {
      assert rest[k] in multiset(s[1..]);
      var j :| 0 <= j < |s[1..]| && s[1..][j] == rest[k];
      assert s[j + 1] == rest[k];
    }
  }

  /** A sort by date, newest first and null dates last. The order of meals
      with equal dates is left open, as the database leaves it. */
  function SortByDateDesc(ms: seq<Meal>): (r: seq<Meal>)
    ensures SortedByDateDesc(r)
    ensures multiset(r) == multiset(ms)
  {
    if ms == [] then []
    else
      assert ms == [ms[0]] + ms[1..];
      InsertByDate(ms[0], SortByDateDesc(ms[1..]))
  }

  /** The answer to `GET /`: exactly the caller's meals, each as often as it
      is stored, newest first. */
  function Listing(ms: seq<Meal>, caller: ObjectId): (r: seq<Meal>)
    ensures SortedByDateDesc(r)
    ensures forall m :: m in r <==> m in ms && m.userId == caller
    ensures forall m :: multiset(r)[m] == if m.userId == caller then multiset(ms)[m] else 0
  {
    var r := SortByDateDesc(OwnedBy(ms, caller));
    forall m ensures multiset(r)[m] == if m.userId == caller then multiset(ms)[m] else 0 {
      FilterMultiset(ms, (x: Meal) => x.userId == caller, m);
    }
    r
  }

  /** `findOne({ _id: id, userId: caller })`: the first position holding a
      meal with that id AND that owner. */
  function FindOwned(ms: seq<Meal>, id: ObjectId, caller: ObjectId): (r: Option<nat>)
    ensures r.Some? ==> r.value < |ms| && ms[r.value].id == id && ms[r.value].userId == caller
    ensures r.None? <==> forall k :: 0 <= k < |ms| ==> !(ms[k].id == id && ms[k].userId == caller)
  {
    if ms == [] then None
    else if ms[0].id == id && ms[0].userId == caller then Some(0)
    else
      match FindOwned(ms[1..], id, caller)
      case None =>
        assert forall k :: 1 <= k < |ms| ==> ms[k] == ms[1..][k - 1];
        None
      case Some(i) => Some(i + 1)
  }

  /** Ids strictly increase along the collection, so they are unique. */
  ghost predicate IdsIncreasing(ms: seq<Meal>)
  {
    forall i, j :: 0 <= i < j < |ms| ==> ms[i].id < ms[j].id
  }

  /** Deleting the found meal removes that one meal and nothing else: every
      other meal stays, in order, and the deleted id is gone. */
  lemma DeleteRemovesExactlyOne(ms: seq<Meal>, id: ObjectId, caller: ObjectId)
    requires IdsIncreasing(ms)
    requires FindOwned(ms, id, caller).Some?
    ensures var i := FindOwned(ms, id, caller).value;
      && multiset(RemoveAt(ms, i)) + multiset{ms[i]} == multiset(ms)
      && forall m :: m in RemoveAt(ms, i) <==> m in ms && m.id != id
  {
    var i := FindOwned(ms, id, caller).value;
    RemoveAtMultiset(ms, i);
    var r := RemoveAt(ms, i);
    forall m ensures m in r <==> m in ms && m.id != id {
      if m in r {
        var k :| 0 <= k < |r| && r[k] == m;
        if k < i { assert ms[k] == m; } else { assert ms[k + 1] == m; }
      }
      if m in ms && m.id != id {
        var k :| 0 <= k < |ms| && ms[k] == m;
        if k < i { assert r[k] == m; } else { assert k != i; assert r[k - 1] == m; }
      }
    }
  }

  /** The meal collection behind the routes. */
  class MealStore {
    var meals: seq<Meal>
    var nextId: ObjectId

    /** Every stored meal has an id below the counter, ids increase along
        the collection, and every stored meal's totals agree with its items
        (the pre-save hook ran on it). */
    ghost predicate Valid()
      reads this
    {
      && IdsIncreasing(meals)
      && (forall i :: 0 <= i < |meals| ==> meals[i].id < nextId && Consistent(meals[i]))
    }

    constructor ()
      ensures Valid() && meals == []
    {
      meals, nextId := [], 0;
    }

    /** `GET /`: 401 unless authenticated; otherwise 200 with the caller's
        meals, newest first. */
    method HandleList(header: Option<string>, verify: string -> Option<ObjectId>) returns (res: Response)
      requires Valid()
      ensures Authenticate(header, verify).Rejected? ==> res == Response(401, Failure(Authenticate(header, verify).error))
      ensures Authenticate(header, verify).Authorized? ==>
        var caller := Authenticate(header, verify).userId;
        && res.status == 200 && res.body.MealList?
        && SortedByDateDesc(res.body.meals)
        && (forall m :: multiset(res.body.meals)[m] == if m.userId == caller then multiset(meals)[m] else 0)
    {
      match Authenticate(header, verify)
      case Rejected(e) =>
        res := Response(401, Failure(e));
      case Authorized(caller) =>
        res := Response(200, MealList(Listing(meals, caller)));
    }

    /** `POST /`: 401 unless authenticated; a body that fails validation
        gives 500 and stores nothing; otherwise the meal is stored with the
        caller as owner (whatever `userId` the body carried), with its totals
        recomputed by the pre-save hook, and returned with 201. */
    method HandleCreate(header: Option<string>, verify: string -> Option<ObjectId>, body: MealBody, now: int)
      returns (res: Response)
      requires Valid()
      modifies this
      ensures Valid()
      ensures Authenticate(header, verify).Rejected? ==>
        res == Response(401, Failure(Authenticate(header, verify).error))
        && meals == old(meals) && nextId == old(nextId)
      ensures Authenticate(header, verify).Authorized? ==>
        var caller := Authenticate(header, verify).userId;
        match CastMeal(old(nextId), Some(caller), body, now)
        case Err(_) =>
          res == Response(500, Failure("Could not create meal")) && meals == old(meals) && nextId == old(nextId)
        case Ok(m) =>
          && meals == old(meals) + [Saved(m)] && nextId == old(nextId) + 1
          && res == Response(201, Created(Saved(m)))
          && Saved(m).userId == caller && Consistent(Saved(m))
    {
      match Authenticate(header, verify)
      case Rejected(e) =>
        res := Response(401, Failure(e));
      case Authorized(caller) =>
        match CastMeal(nextId, Some(caller), body, now)
        case Err(_) =>
          res := Response(500, Failure("Could not create meal"));
        case Ok(m) =>
          var doc := new MealDocument(m);
          doc.PreSave();
          var saved := doc.Value();
          meals := meals + [saved];
          nextId := nextId + 1;
          res := Response(201, Created(saved));
    }

    /** `DELETE /:id`: 401 unless authenticated; 404 and no change unless a
        meal has both that id and the caller as owner; otherwise exactly that
        meal is removed. */
    method HandleDelete(header: Option<string>, verify: string -> Option<ObjectId>, id: ObjectId)
      returns (res: Response)
      requires Valid()
      modifies this
      ensures Valid() && nextId == old(nextId)
      ensures Authenticate(header, verify).Rejected? ==>
        res == Response(401, Failure(Authenticate(header, verify).error)) && meals == old(meals)
      ensures Authenticate(header, verify).Authorized? ==>
        match FindOwned(old(meals), id, Authenticate(header, verify).userId)
        case None => res == Response(404, Failure("Meal not found")) && meals == old(meals)
        case Some(i) => res == Response(200, Message("Meal deleted")) && meals == RemoveAt(old(meals), i)
    {
      match Authenticate(header, verify)
      case Rejected(e) =>
        res := Response(401, Failure(e));
      case Authorized(caller) =>
        match FindOwned(meals, id, caller)
        case None =>
          res := Response(404, Failure("Meal not found"));
        case Some(i) =>
          meals := RemoveAt(meals, i);
          res := Response(200, Message("Meal deleted"));
    }
  }
}

=== FILE: user_model.dfy ===
/** The user document of server/models/user.js: field validators (required,
    trimmed, lower-cased, the e-mail pattern, the password's minimum
    length), the pre-save hook that replaces a new or modified password by
    its hash, and `comparePassword`. bcrypt's `hash` and `compare` are
    parameters: `hash(plain, salt)` and `compare(candidate, stored)`. */
module Users {
  import opened Common

  /** A stored user. `password` holds what the pre-save hook left there. */
  datatype User = User(
    id: ObjectId,
    username: string,
    email: string,
    password: string,
    goals: Option<string>,
    age: Option<int>,
    weight: Option<real>,
    height: Option<real>,
    goalWeight: Option<real>)

  /** The fields handed to `new User({...})`, before casting. */
  datatype UserFields = UserFields(
    username: Option<string>,
    email: Option<string>,
    password: Option<string>,
    goals: Option<string>,
    age: Option<int>,
    weight: Option<real>,
    height: Option<real>,
    goalWeight: Option<real>)

  /** The validator that failed. */
  datatype Violation = Required | TooShort | NoMatch

  /** A Mongoose validation failure and the path it concerns. */
  datatype ValidationError = ValidationError(violation: Violation, path: string)

  const MinPasswordLength: nat := 8

  /** The characters JavaScript's `.` does not match. */
  predicate IsLineTerminator(c: char)
  {
    c == '\n' || c == '\r' || c == '\U{2028}' || c == '\U{2029}'
  }

  /** No character of `s[lo..hi]` is a line terminator. */
  predicate NoLineTerminator(s: string, lo: int, hi: int)
    requires 0 <= lo && hi <= |s|
  {
    forall k | lo <= k < hi :: !IsLineTerminator(s[k])
  }

  /** The part of the pattern after the '@' at `a`: one or more characters,
      a '.', and one more character, none a line terminator. */
  predicate DotPartAfter(s: string, a: nat)
    requires a < |s|
  {
    exists d | a + 1 < d < |s| - 1 :: s[d] == '.' && !IsLineTerminator(s[d + 1]) && NoLineTerminator(s, a + 1, d)
  }

  /** `/.+\@.+\..+/.test(s)`. The pattern is not anchored, so it asks only for
      somewhere in `s`: a character, '@', one or more characters, '.', and a
      character, none of them a line terminator. */
  predicate MatchesEmailPattern(s: string)
  {
    exists a | 0 < a < |s| :: s[a] == '@' && !IsLineTerminator(s[a - 1]) && DotPartAfter(s, a)
  }

  /** An ordinary address matches. */
  lemma EmailPatternAcceptsAddress(local: string, domain: string, tld: string)
    requires local != [] && domain != [] && tld != []
    requires forall c :: c in local + domain + tld ==> !IsLineTerminator(c)
    ensures MatchesEmailPattern(local + "@" + domain + "." + tld)
  {
    var s := local + "@" + domain + "." + tld;
    var a := |local|;
    var d := a + 1 + |domain|;
    assert s[a] == '@' && s[a - 1] == local[a - 1];
    assert s[d] == '.' && s[d + 1] == tld[0];
    forall k | a + 1 <= k < d ensures !IsLineTerminator(s[k]) {
      assert s[k] == domain[k - a - 1];
    }
    assert DotPartAfter(s, a);
  }

  /** A match needs an '@' with a character before it, and a '.' at least
      two places after that '@' with a character after it. */
  lemma EmailPatternNeedsAtThenDot(s: string)
    requires MatchesEmailPattern(s)
    ensures exists a, d :: 0 < a && a + 1 < d < |s| - 1 && s[a] == '@' && s[d] == '.'
  {
    var a :| 0 < a < |s| && s[a] == '@' && !IsLineTerminator(s[a - 1]) && DotPartAfter(s, a);
    var d :| a + 1 < d < |s| - 1 && s[d] == '.' && !IsLineTerminator(s[d + 1]) && NoLineTerminator(s, a + 1, d);
  }

  /** Without an '@', nothing matches. */
  lemma EmailPatternRejectsNoAt(s: string)
    requires '@' !in s
    ensures !MatchesEmailPattern(s)
  {
  }

  /** Casting and validating `new User(fields)`: the username is trimmed and
      required; the e-mail is trimmed, lower-cased, required and must match
      the pattern; the password is required and at least 8 UTF-16 code units
      long (JavaScript's `length`, checked on the plain text, before the
      pre-save hook); the goals are trimmed. */
  function CastUser(id: ObjectId, f: UserFields): (r: Result<User, ValidationError>)
    ensures r.Ok? <==>
      && f.username.Some? && Trim(f.username.value) != []
      && f.email.Some? && Lower(Trim(f.email.value)) != [] && MatchesEmailPattern(Lower(Trim(f.email.value)))
      && f.password.Some? && f.password.value != [] && Utf16Length(f.password.value) >= MinPasswordLength
    ensures f.password.Some? && 0 < Utf16Length(f.password.value) < MinPasswordLength ==> r.Err?
    ensures r.Ok? ==> (
      && r.value.id == id
      && r.value.username == Trim(f.username.value)
      && r.value.email == Lower(Trim(f.email.value))
      && r.value.password == f.password.value
      && r.value.goals == (if f.goals.Some? then Some(Trim(f.goals.value)) else None)
      && r.value.age == f.age && r.value.weight == f.weight && r.value.height == f.height
      && r.value.goalWeight == f.goalWeight)
  {
    if f.username.None? || Trim(f.username.value) == [] then Err(ValidationError(Required, "username"))
    else if f.email.None? || Lower(Trim(f.email.value)) == [] then Err(ValidationError(Required, "email"))
    else if !MatchesEmailPattern(Lower(Trim(f.email.value))) then Err(ValidationError(NoMatch, "email"))
    else if f.password.None? || f.password.value == [] then Err(ValidationError(Required, "password"))
    else if Utf16Length(f.password.value) < MinPasswordLength then Err(ValidationError(TooShort, "password"))
    else
      var goals := if f.goals.Some? then Some(Trim(f.goals.value)) else None;
      Ok(User(id, Trim(f.username.value), Lower(Trim(f.email.value)), f.password.value,
              goals, f.age, f.weight, f.height, f.goalWeight))
  }

  /** Four emoji are four characters but eight UTF-16 code units, so they
      pass the minimum length of 8. */
  lemma AstralPasswordIsLongEnough(id: ObjectId, username: string, email: string)
    requires Trim(username) != [] && Lower(Trim(email)) != [] && MatchesEmailPattern(Lower(Trim(email)))
    ensures var pw := "\U{1F600}\U{1F600}\U{1F600}\U{1F600}";
      && |pw| == 4 && Utf16Length(pw) == 8
      && CastUser(id, UserFields(Some(username), Some(email), Some(pw), None, None, None, None, None)).Ok?
  {
    var pw := "\U{1F600}\U{1F600}\U{1F600}\U{1F600}";
    assert Utf16Length(pw) == 8 by {
      var smile := ['\U{1F600}'];
      assert Utf16Length(smile) == 2 by {
        assert smile[1..] == [];
      }
      assert Utf16Length(smile + smile) == 4 by {
        assert (smile + smile)[1..] == smile;
      }
      assert Utf16Length(smile + smile + smile) == 6 by {
        assert (smile + smile + smile)[1..] == smile + smile;
      }
      assert pw == smile + smile + smile + smile && pw[1..] == smile + smile + smile;
    }
    var f := UserFields(Some(username), Some(email), Some(pw), None, None, None, None, None);
    assert f.password.value != [];
  }

  /** A stored e-mail is already in normal form: trimming and lower-casing it
      again changes nothing. */
  lemma CastEmailIsNormalised(id: ObjectId, f: UserFields)
    requires CastUser(id, f).Ok?
    ensures var e := CastUser(id, f).value.email; Lower(Trim(e)) == e
    ensures var u := CastUser(id, f).value.username; Trim(u) == u && u != []
  {
    TrimIdempotent(f.username.value);
    LowerTrimIsNormal(f.email.value);
  }

  /** Trimming and lower-casing, the e-mail setters, are idempotent together. */
  lemma LowerTrimIsNormal(raw: string)
    ensures Lower(Trim(Lower(Trim(raw)))) == Lower(Trim(raw))
  {
    var t := Trim(raw);
    var e := Lower(t);
    TrimHasNoOuterSpace(raw);
    if t != [] {
      assert e[0] == LowerChar(t[0]) && e[|e| - 1] == LowerChar(t[|t| - 1]);
    }
    NoOuterSpaceIsTrimmed(e);
    LowerIdempotent(t);
  }

  /** Lower-casing twice is lower-casing once. */
  lemma LowerIdempotent(x: string)
    ensures Lower(Lower(x)) == Lower(x)
  {
    assert forall i :: 0 <= i < |x| ==> Lower(Lower(x))[i] == Lower(x)[i];
  }

  /** A string that neither starts nor ends with whitespace is its own trim. */
  lemma NoOuterSpaceIsTrimmed(e: string)
    requires e == [] || (!IsSpace(e[0]) && !IsSpace(e[|e| - 1]))
    ensures Trim(e) == e
  {
    if e != [] {
      assert TrimStart(e) == e;
    }
  }

  /** `user.comparePassword(candidate)`: bcrypt's compare of the candidate
      against the stored hash. */
  function ComparePassword(u: User, candidate: string, compare: (string, string) -> bool): bool
  {
    compare(candidate, u.password)
  }

  /** A mutable user document: its fields and whether `password` has been
      modified since the last save (a new document counts as modified). */
  class UserDocument {
    var id: ObjectId
    var username: string
    var email: string
    var password: string
    var goals: Option<string>
    var age: Option<int>
    var weight: Option<real>
    var height: Option<real>
    var goalWeight: Option<real>
    var passwordModified: bool

    function Value(): User
      reads this
    {
      User(id, username, email, password, goals, age, weight, height, goalWeight)
    }

    /** `new User(...)`: every path, the password included, is new. */
    constructor (u: User)
      ensures Value() == u && passwordModified
    {
      id, username, email, password := u.id, u.username, u.email, u.password;
      goals, age, weight, height, goalWeight := u.goals, u.age, u.weight, u.height, u.goalWeight;
      passwordModified := true;
    }

    /** `user.password = plain`. */
    method SetPassword(plain: string)
      modifies this
      ensures Value() == old(Value()).(password := plain) && passwordModified
    {
      password := plain;
      passwordModified := true;
    }

    /** `userSchema.pre('save', ...)`: when the password is new or modified
        it is replaced by its salted hash; otherwise nothing changes. */
    method PreSave(salt: string, hash: (string, string) -> string)
      modifies this
      ensures old(passwordModified) ==> Value() == old(Value()).(password := hash(old(password), salt))
      ensures !old(passwordModified) ==> Value() == old(Value())
      ensures passwordModified == old(passwordModified)
    {
      if passwordModified {
        password := hash(password, salt);
      }
    }

    /** `user.save()`: the hook runs, and afterwards no path counts as
        modified, so saving again does not hash the hash. */
    method Save(salt: string, hash: (string, string) -> string)
      modifies this
      ensures old(passwordModified) ==> Value() == old(Value()).(password := hash(old(password), salt))
      ensures !old(passwordModified) ==> Value() == old(Value())
      ensures !passwordModified
    {
      PreSave(salt, hash);
      passwordModified := false;
    }
  }

  /** A new document saved once and then saved again (as any later save
      that leaves the password alone would). After either save a candidate
      matches exactly when bcrypt accepts it for the hash of the password
      given at creation: the second save does not hash the hash. With a
      compare that accepts the plain text a hash was made from, that
      password matches; with one that accepts nothing else, no other
      candidate does. */
  method NewUserMatchesItsPassword(u: User, candidate: string, salt: string, later: string,
                                   hash: (string, string) -> string, compare: (string, string) -> bool)
    returns (afterFirst: bool, afterSecond: bool)
    requires forall p, s :: compare(p, hash(p, s))
    ensures afterFirst == compare(candidate, hash(u.password, salt)) && afterSecond == afterFirst
    ensures candidate == u.password ==> afterFirst && afterSecond
    ensures (forall p, q, s :: compare(p, hash(q, s)) ==> p == q) ==>
      (afterFirst || afterSecond ==> candidate == u.password)
  {
    var doc := new UserDocument(u);
    doc.Save(salt, hash);
    afterFirst := ComparePassword(doc.Value(), candidate, compare);
    doc.Save(later, hash);
    afterSecond := ComparePassword(doc.Value(), candidate, compare);
  }

  /** A saved document whose password is then assigned and saved again:
      a candidate matches exactly when bcrypt accepts it for the hash of
      the new password, so the new password matches, and with a compare
      that accepts nothing but the hashed plain text the old one no
      longer does. */
  method ChangedPasswordMatches(u: User, next: string, candidate: string, salt: string, later: string,
                                hash: (string, string) -> string, compare: (string, string) -> bool)
    returns (matched: bool)
    requires forall p, s :: compare(p, hash(p, s))
    ensures matched == compare(candidate, hash(next, later))
    ensures candidate == next ==> matched
    ensures (forall p, q, s :: compare(p, hash(q, s)) ==> p == q) ==> (matched ==> candidate == next)
  {
    var doc := new UserDocument(u);
    doc.Save(salt, hash);
    doc.SetPassword(next);
    doc.Save(later, hash);
    matched := ComparePassword(doc.Value(), candidate, compare);
  }
}

=== FILE: user_routes.dfy ===
/** The account routes of server/routes/userRoutes.js: `/register` and
    `/login` over the user collection, the public view of a user that both
    send back, and the 7-day token they issue. A token is modelled by the
    claims it is signed over; its encoding is jsonwebtoken's business. The
    salt that `bcrypt.genSalt` draws is a parameter, as are bcrypt's `hash`
    and `compare`. */
module UserRoutes {
  import opened Common
  import opened Users

  /** `buildUserResponse(user)`: what a client gets to see of a user. */
  datatype PublicUser = PublicUser(
    id: ObjectId,
    username: string,
    email: string,
    goals: Option<string>,
    age: Option<int>,
    weight: Option<real>,
    height: Option<real>)

  /** The claims `signToken` signs: the user's id and the lifetime. */
  datatype TokenClaims = TokenClaims(userId: ObjectId, expiresInSeconds: nat)

  /** The JSON bodies the handlers send. */
  datatype Body = Failure(error: string) | Session(user: PublicUser, token: TokenClaims)

  datatype Response = Response(status: int, body: Body)

  /** `expiresIn: '7d'`. */
  const SevenDays: nat := 7 * 24 * 60 * 60

  const InvalidCredentials: Response := Response(401, Failure("Invalid credentials"))

  function BuildUserResponse(u: User): PublicUser
  {
    PublicUser(u.id, u.username, u.email, u.goals, u.age, u.weight, u.height)
  }

  /** The public view copies the identity and profile fields and depends on
      neither the stored password nor the goal weight. */
  lemma PublicViewHidesSecrets(u: User, password: string, goalWeight: Option<real>)
    ensures BuildUserResponse(u.(password := password, goalWeight := goalWeight)) == BuildUserResponse(u)
    ensures var p := BuildUserResponse(u);
      p.id == u.id && p.username == u.username && p.email == u.email && p.goals == u.goals
      && p.age == u.age && p.weight == u.weight && p.height == u.height
  {
  }

  /** `jwt.sign({ userId }, secret, { expiresIn: '7d' })`, as claims. */
  function SignToken(userId: ObjectId): (r: TokenClaims)
    ensures r.userId == userId && r.expiresInSeconds == 604800
  {
    TokenClaims(userId, SevenDays)
  }

  /** The register handler destructures only these fields of the body, so a
      `goalWeight` in it never reaches the model. */
  function Forwarded(body: UserFields): UserFields
  {
    body.(goalWeight := None)
  }

  /** `findOne({ $or: [{ email }, { username }] })` finds something. The
      query values pass through the schema's setters, so they are compared
      trimmed (and the e-mail lower-cased), as stored. */
  predicate Taken(users: seq<User>, username: string, email: string)
  {
    exists i | 0 <= i < |users| :: users[i].email == email || users[i].username == username
  }

  /** `findOne({ email })`: the first user with that (normalised) e-mail. */
  function FindByEmail(users: seq<User>, email: string): (r: Option<nat>)
    ensures r.Some? ==> (
      && r.value < |users| && users[r.value].email == email
      && forall k :: 0 <= k < r.value ==> users[k].email != email)
    ensures r.None? <==> forall k :: 0 <= k < |users| ==> users[k].email != email
  {
    if users == [] then None
    else if users[0].email == email then Some(0)
    else
      match FindByEmail(users[1..], email)
      case None =>
        assert forall k :: 1 <= k < |users| ==> users[k] == users[1..][k - 1];
        None
      case Some(i) =>
        assert forall k :: 1 <= k < i + 1 ==> users[k] == users[1..][k - 1];
        Some(i + 1)
  }

  /** The user collection behind the routes. */
  class UserStore {
    var users: seq<User>
    var nextId: ObjectId

    /** Ids increase and stay below the counter; no two users share an
        e-mail or a username. */
    ghost predicate Valid()
      reads this
    {
      && (forall i :: 0 <= i < |users| ==> users[i].id < nextId)
      && (forall i, j :: 0 <= i < j < |users| ==>
            users[i].id < users[j].id && users[i].email != users[j].email && users[i].username != users[j].username)
    }

    constructor ()
      ensures Valid() && users == []
    {
      users, nextId := [], 0;
    }

    /** `POST /register`. A missing or empty username, e-mail or password is
        a 400 before the collection is looked at; a user with the same e-mail
        or username is a 409; a document that fails validation is a 500;
        otherwise the user is stored with the hash of its password and
        without a goal weight, and 201 carries its public view and a token
        for its id. */
    method HandleRegister(body: UserFields, salt: string, hash: (string, string) -> string) returns (res: Response)
      requires Valid()
      modifies this
      ensures Valid()
      ensures !(TruthyString(body.username) && TruthyString(body.email) && TruthyString(body.password)) ==>
        res == Response(400, Failure("username, email, and password are required"))
        && users == old(users) && nextId == old(nextId)
      ensures TruthyString(body.username) && TruthyString(body.email) && TruthyString(body.password) ==>
        if Taken(old(users), Trim(body.username.value), Lower(Trim(body.email.value))) then
          res == Response(409, Failure("User with that email or username already exists"))
          && users == old(users) && nextId == old(nextId)
        else match CastUser(old(nextId), Forwarded(body))
          case Err(_) =>
            res == Response(500, Failure("Could not register user")) && users == old(users) && nextId == old(nextId)
          case Ok(u) =>
            var stored := u.(password := hash(body.password.value, salt));
            && users == old(users) + [stored] && nextId == old(nextId) + 1
            && stored.goalWeight == None
            && res == Response(201, Session(BuildUserResponse(stored), SignToken(stored.id)))
    {
      if !(TruthyString(body.username) && TruthyString(body.email) && TruthyString(body.password)) {
        return Response(400, Failure("username, email, and password are required"));
      }
      var username := Trim(body.username.value);
      var email := Lower(Trim(body.email.value));
      if Taken(users, username, email) {
        return Response(409, Failure("User with that email or username already exists"));
      }
      match CastUser(nextId, Forwarded(body))
      case Err(_) =>
        res := Response(500, Failure("Could not register user"));
      case Ok(u) =>
        var doc := new UserDocument(u);
        doc.Save(salt, hash);
        var stored := doc.Value();
        users := users + [stored];
        nextId := nextId + 1;
        res := Response(201, Session(BuildUserResponse(stored), SignToken(stored.id)));
    }

    /** `POST /login`. A missing or empty e-mail or password is a 400; an
        unknown e-mail and a wrong password give the very same 401; a match
        gives 200 with the user's public view and a fresh token. */
    method HandleLogin(email: Option<string>, password: Option<string>, compare: (string, string) -> bool)
      returns (res: Response)
      requires Valid()
      ensures !(TruthyString(email) && TruthyString(password)) ==>
        res == Response(400, Failure("email and password are required"))
      ensures TruthyString(email) && TruthyString(password) ==>
        match FindByEmail(users, Lower(Trim(email.value)))
        case None => res == InvalidCredentials
        case Some(i) =>
          if ComparePassword(users[i], password.value, compare)
          then res == Response(200, Session(BuildUserResponse(users[i]), SignToken(users[i].id)))
          else res == InvalidCredentials
    {
      if !(TruthyString(email) && TruthyString(password)) {
        return Response(400, Failure("email and password are required"));
      }
      match FindByEmail(users, Lower(Trim(email.value)))
      case None =>
        res := InvalidCredentials;
      case Some(i) =>
        var user := users[i];
        if !ComparePassword(user, password.value, compare) {
          res := InvalidCredentials;
        } else {
          res := Response(200, Session(BuildUserResponse(user), SignToken(user.id)));
        }
    }
  }

  /** Registering and then logging in with the same e-mail and password
      returns the same user, provided bcrypt's compare accepts the plain
      text a hash was made from. */
  method RegisterThenLogin(store: UserStore, body: UserFields, salt: string,
                           hash: (string, string) -> string, compare: (string, string) -> bool)
    returns (registered: Response, loggedIn: Response)
    requires store.Valid()
    requires forall p, s :: compare(p, hash(p, s))
    modifies store
    ensures store.Valid()
    ensures registered.status == 201 ==> (
      && registered.body.Session? && loggedIn.status == 200 && loggedIn.body.Session?
      && loggedIn.body.user == registered.body.user)
  {
    registered := store.HandleRegister(body, salt, hash);
    loggedIn := store.HandleLogin(body.email, body.password, compare);
    if registered.status == 201 {
      var n := |store.users| - 1;
      assert store.users[n].email == Lower(Trim(body.email.value));
      assert FindByEmail(store.users, Lower(Trim(body.email.value))) == Some(n);
    }
  }
}

=== FILE: workout_model.dfy ===
/** The workout document of server/models/workout.js: a declarative schema
    with one required owner, one required trimmed exercise name, optional
    numbers, optional trimmed notes and a date that defaults to the
    creation time when the body leaves it out. */
module Workouts {
  import opened Common

  /** A stored workout document. */
  datatype Workout = Workout(
    id: ObjectId,
    userId: ObjectId,
    date: Option<int>,
    exercise: string,
    duration: Option<int>,
    sets: Option<int>,
    reps: Option<int>,
    weight: Option<real>,
    bodyWeight: Option<real>,
    notes: Option<string>)

  /** The keys of a request body that the workout route spreads into a new
      document. `date` has a schema default, so for it an absent key and a
      null one differ. */
  datatype WorkoutBody = WorkoutBody(
    userId: Option<ObjectId>,
    date: Field<int>,
    exercise: Option<string>,
    duration: Option<int>,
    sets: Option<int>,
    reps: Option<int>,
    weight: Option<real>,
    bodyWeight: Option<real>,
    notes: Option<string>)

  /** A Mongoose validation failure, naming the path that is missing. */
  datatype ValidationError = Required(path: string)

  /** `new Workout({ ...body, userId })` followed by validation. The owner
      is required; the exercise is trimmed and required (an all-blank name
      is empty after trimming, so it is missing); an absent date defaults to
      the creation time `now`, a null one is stored null; the numbers are
      optional and copied; the notes are optional and trimmed. */
  function CastWorkout(id: ObjectId, owner: Option<ObjectId>, body: WorkoutBody, now: int): (r: Result<Workout, ValidationError>)
    ensures r.Ok? <==> owner.Some? && body.exercise.Some? && Trim(body.exercise.value) != []
    ensures owner.None? ==> r == Err(Required("userId"))
    ensures owner.Some? && (body.exercise.None? || Trim(body.exercise.value) == []) ==> r == Err(Required("exercise"))
    ensures r.Ok? ==> (
      && r.value.id == id && r.value.userId == owner.value
      && r.value.exercise == Trim(body.exercise.value)
      && (body.date.Absent? ==> r.value.date == Some(now))
      && (body.date.Null? ==> r.value.date.None?)
      && (body.date.Given? ==> r.value.date == Some(body.date.value))
      && r.value.duration == body.duration && r.value.sets == body.sets && r.value.reps == body.reps
      && r.value.weight == body.weight && r.value.bodyWeight == body.bodyWeight
      && r.value.notes == (if body.notes.Some? then Some(Trim(body.notes.value)) else None))
  {
    if owner.None? then Err(Required("userId"))
    else if body.exercise.None? || Trim(body.exercise.value) == [] then Err(Required("exercise"))
    else
      var notes := if body.notes.Some? then Some(Trim(body.notes.value)) else None;
      Ok(Workout(id, owner.value, WithDefault(body.date, now), Trim(body.exercise.value),
                 body.duration, body.sets, body.reps, body.weight, body.bodyWeight, notes))
  }

  /** The spread puts the caller's id last, so a `userId` in the body has no
      effect on the document. */
  lemma CastWorkoutIgnoresBodyOwner(id: ObjectId, caller: ObjectId, body: WorkoutBody, claimed: Option<ObjectId>, now: int)
    ensures CastWorkout(id, Some(caller), body.(userId := claimed), now) == CastWorkout(id, Some(caller), body, now)
    ensures CastWorkout(id, Some(caller), body, now).Ok? ==> CastWorkout(id, Some(caller), body, now).value.userId == caller
  {
  }

  /** A stored workout's exercise name is never blank and carries no outer
      whitespace, and its notes, when present, carry none either. */
  lemma CastWorkoutIsNormalised(id: ObjectId, owner: Option<ObjectId>, body: WorkoutBody, now: int)
    requires CastWorkout(id, owner, body, now).Ok?
    ensures var w := CastWorkout(id, owner, body, now).value;
      w.exercise != [] && Trim(w.exercise) == w.exercise
      && (w.notes.Some? ==> Trim(w.notes.value) == w.notes.value)
  {
    TrimIdempotent(body.exercise.value);
    if body.notes.Some? {
      TrimIdempotent(body.notes.value);
    }
  }
}

=== FILE: workout_routes.dfy ===
/** The workout routes of server/routes/workoutRoutes.js as operations on
    an ownership-scoped workout collection. Each handler runs behind the
    `auth` middleware. Ids come from a counter, standing for ObjectId
    generation, so sorting by `_id` descending lists the newest insertion
    first. */
module WorkoutRoutes {
  import opened Common
  import opened Workouts
  import opened Auth

  /** The JSON bodies the handlers send. */
  datatype Body = Failure(error: string) | Message(message: string) | WorkoutList(workouts: seq<Workout>) | Created(workout: Workout)

  datatype Response = Response(status: int, body: Body)

  /** Ids strictly increase along the collection, so they are unique. */
  ghost predicate IdsIncreasing(ws: seq<Workout>)
  {
    forall i, j :: 0 <= i < j < |ws| ==> ws[i].id < ws[j].id
  }

  /** `{ userId: caller }` as a query filter. */
  function OwnedBy(ws: seq<Workout>, caller: ObjectId): (r: seq<Workout>)
    ensures forall w :: w in r <==> w in ws && w.userId == caller
  {
    Filter(ws, (w: Workout) => w.userId == caller)
  }

  /** The caller's workouts keep their relative order, so their ids still increase. */
  lemma {:induction false} OwnedByIncreasing(ws: seq<Workout>, caller: ObjectId)
    requires IdsIncreasing(ws)
    ensures IdsIncreasing(OwnedBy(ws, caller))
  {
    if ws != [] {
      OwnedByIncreasing(ws[1..], caller);
      var tail := OwnedBy(ws[1..], caller);
      forall k | 0 <= k < |tail| ensures ws[0].id < tail[k].id {
        assert tail[k] in ws[1..];
        var j :| 0 <= j < |ws[1..]| && ws[1..][j] == tail[k];
        assert ws[j + 1] == tail[k];
      }
    }
  }

  /** `.find({ userId: caller }).sort({ _id: -1 })`: exactly the caller's
      workouts, highest id first. */
  function Listing(ws: seq<Workout>, caller: ObjectId): (r: seq<Workout>)
    requires IdsIncreasing(ws)
    ensures forall w :: w in r <==> w in ws && w.userId == caller
    ensures forall i, j :: 0 <= i < j < |r| ==> r[i].id > r[j].id
  {
    var owned := OwnedBy(ws, caller);
    OwnedByIncreasing(ws, caller);
    var r := Reverse(owned);
    assert forall w :: w in r <==> w in owned by {
      forall w ensures w in r <==> w in owned {
        if w in r {
          var k :| 0 <= k < |r| && r[k] == w;
          assert owned[|owned| - 1 - k] == w;
        }
        if w in owned {
          var k :| 0 <= k < |owned| && owned[k] == w;
          assert r[|owned| - 1 - k] == w;
        }
      }
    }
    r
  }

  /** `findOne({ _id: id, userId: caller })`: the first position holding a
      workout with that id AND that owner. */
  function FindOwned(ws: seq<Workout>, id: ObjectId, caller: ObjectId): (r: Option<nat>)
    ensures r.Some? ==> r.value < |ws| && ws[r.value].id == id && ws[r.value].userId == caller
    ensures r.None? <==> forall k :: 0 <= k < |ws| ==> !(ws[k].id == id && ws[k].userId == caller)
  {
    if ws == [] then None
    else if ws[0].id == id && ws[0].userId == caller then Some(0)
    else
      match FindOwned(ws[1..], id, caller)
      case None =>
        assert forall k :: 1 <= k < |ws| ==> ws[k] == ws[1..][k - 1];
        None
      case Some(i) => Some(i + 1)
  }

  /** Deleting the found workout removes that one workout and nothing else:
      every other workout stays, and the deleted id is gone. */
  lemma DeleteRemovesExactlyOne(ws: seq<Workout>, id: ObjectId, caller: ObjectId)
    requires IdsIncreasing(ws)
    requires FindOwned(ws, id, caller).Some?
    ensures var i := FindOwned(ws, id, caller).value;
      && multiset(RemoveAt(ws, i)) + multiset{ws[i]} == multiset(ws)
      && forall w :: w in RemoveAt(ws, i) <==> w in ws && w.id != id
  {
    var i := FindOwned(ws, id, caller).value;
    RemoveAtMultiset(ws, i);
    var r := RemoveAt(ws, i);
    forall w ensures w in r <==> w in ws && w.id != id {
      if w in r {
        var k :| 0 <= k < |r| && r[k] == w;
        if k < i { assert ws[k] == w; } else { assert ws[k + 1] == w; }
      }
      if w in ws && w.id != id {
        var k :| 0 <= k < |ws| && ws[k] == w;
        if k < i { assert r[k] == w; } else { assert k != i; assert r[k - 1] == w; }
      }
    }
  }

  /** The workout collection behind the routes. */
  class WorkoutStore {
    var workouts: seq<Workout>
    var nextId: ObjectId

    /** Ids increase along the collection and stay below the counter. */
    ghost predicate Valid()
      reads this
    {
      IdsIncreasing(workouts) && forall i :: 0 <= i < |workouts| ==> workouts[i].id < nextId
    }

    constructor ()
      ensures Valid() && workouts == []
    {
      workouts, nextId := [], 0;
    }

    /** `GET /`: 401 unless authenticated; otherwise 200 with exactly the
        caller's workouts, newest id first. */
    method HandleList(header: Option<string>, verify: string -> Option<ObjectId>) returns (res: Response)
      requires Valid()
      ensures Authenticate(header, verify).Rejected? ==> res == Response(401, Failure(Authenticate(header, verify).error))
      ensures Authenticate(header, verify).Authorized? ==>
        var caller := Authenticate(header, verify).userId;
        && res.status == 200 && res.body.WorkoutList?
        && (forall w :: w in res.body.workouts <==> w in workouts && w.userId == caller)
        && (forall i, j :: 0 <= i < j < |res.body.workouts| ==> res.body.workouts[i].id > res.body.workouts[j].id)
    {
      match Authenticate(header, verify)
      case Rejected(e) =>
        res := Response(401, Failure(e));
      case Authorized(caller) =>
        res := Response(200, WorkoutList(Listing(workouts, caller)));
    }

    /** `POST /`: 401 unless authenticated; a body without an exercise name
        gives 500 and stores nothing; otherwise the workout is stored with the
        caller as owner and returned with 201. */
    method HandleCreate(header: Option<string>, verify: string -> Option<ObjectId>, body: WorkoutBody, now: int)
      returns (res: Response)
      requires Valid()
      modifies this
      ensures Valid()
      ensures Authenticate(header, verify).Rejected? ==>
        res == Response(401, Failure(Authenticate(header, verify).error))
        && workouts == old(workouts) && nextId == old(nextId)
      ensures Authenticate(header, verify).Authorized? ==>
        var caller := Authenticate(header, verify).userId;
        match CastWorkout(old(nextId), Some(caller), body, now)
        case Err(_) =>
          res == Response(500, Failure("Could not create workout"))
          && workouts == old(workouts) && nextId == old(nextId)
        case Ok(w) =>
          && workouts == old(workouts) + [w] && nextId == old(nextId) + 1
          && res == Response(201, Created(w)) && w.userId == caller
    {
      match Authenticate(header, verify)
      case Rejected(e) =>
        res := Response(401, Failure(e));
      case Authorized(caller) =>
        match CastWorkout(nextId, Some(caller), body, now)
        case Err(_) =>
          res := Response(500, Failure("Could not create workout"));
        case Ok(w) =>
          workouts := workouts + [w];
          nextId := nextId + 1;
          res := Response(201, Created(w));
    }

    /** `DELETE /:id`: 401 unless authenticated; 404 and no change unless a
        workout has both that id and the caller as owner; otherwise exactly
        that workout is removed and "Workout deleted" is reported. */
    method HandleDelete(header: Option<string>, verify: string -> Option<ObjectId>, id: ObjectId)
      returns (res: Response)
      requires Valid()
      modifies this
      ensures Valid() && nextId == old(nextId)
      ensures Authenticate(header, verify).Rejected? ==>
        res == Response(401, Failure(Authenticate(header, verify).error)) && workouts == old(workouts)
      ensures Authenticate(header, verify).Authorized? ==>
        match FindOwned(old(workouts), id, Authenticate(header, verify).userId)
        case None => res == Response(404, Failure("Workout not found")) && workouts == old(workouts)
        case Some(i) => res == Response(200, Message("Workout deleted")) && workouts == RemoveAt(old(workouts), i)
    {
      match Authenticate(header, verify)
      case Rejected(e) =>
        res := Response(401, Failure(e));
      case Authorized(caller) =>
        match FindOwned(workouts, id, caller)
        case None =>
          res := Response(404, Failure("Workout not found"));
        case Some(i) =>
          workouts := RemoveAt(workouts, i);
          res := Response(200, Message("Workout deleted"));
    }
  }
}
